=== FILE: README.md ===
# Batch execution and query equality — a Dafny model

This project models two cores of a document database in Dafny and proves properties of them.

**The `bulk_docs` batch handler.** A client posts an ordered batch of commands:
- PUT;
- PATCH;
- DELETE, of one key or of every key with a given prefix;
- AttachmentPUT.

It may send the batch as a multipart body. Section 0 then holds the commands, and every later section holds one attachment's bytes. The handler runs the batch as one merged transaction (`MergedBatchCommand.Execute`). Execute is a fold over the commands with these effects:
- it appends one reply per command;
- it overwrites `LastEtag` with every etag a command yields;
- it adds written collections to `ModifiedCollections`, but only when that set was allocated;
- every AttachmentPUT dequeues one staged attachment stream.

After a commit the handler may do two waits:
- until the new etag has reached enough replicas (`WaitForReplicationAsync`);
- until the indexes that cover the modified collections are no longer stale (`WaitForIndexesAsync`, with `GetImpactedIndexesToWaitForToBecomeNonStale` choosing the indexes).

**The client's `IndexQuery`.** The model covers the `PageSize` setter that marks `PageSizeSet`. It also covers value equality and `GetHashCode` at the three class levels (`IndexQueryBase<T>`, `IndexQuery<T>`, `IndexQuery`), and the order of the values `GetQueryHash` feeds its hasher. `FEATURE_SHOW_TIMINGS` is taken to be off.

Modules:
- `Wrappers`: `Option`, `Result` and the range of the C# `int`.
- `JsonValues`: the reply objects. They are property lists; `Names` and `Has` read them.
- `Storage`: the documents storage the handler calls, reduced to a few parts:
  - a map from key to (etag, collection);
  - the enumeration order of the keys;
  - the attachments;
  - a strictly increasing etag counter.

  An expected etag must equal the stored one. A missing document has no etag, so an expected etag against it conflicts.
- `Batch`:
  - the commands;
  - the aggregate state (store, replies, `LastEtag`, `ModifiedCollections`, queued and released streams);
  - one function per `case` of Execute's `switch`;
  - the fold `ExecuteCommands`;
  - the `ArraySegment` of parsed commands, with both the loop as written and the corrected loop.
- `BatchProperties`: lemmas relating several commands or several runs of the fold.
- `IndexWait`: index selection and the `while (true)` pass loop. Staleness and timeouts are oracles indexed by the pass number. The loop is bounded by fuel.
- `ReplicationWait`:
  - `int.TryParse` with its round trip against decimal formatting;
  - resolving the replica count;
  - the throw decision.
- `BulkDocs` and `BulkDocsProperties`: staging the multipart sections, allocating `ModifiedCollections`, running the batch, and wiring `LastEtag` and the modified collections into the two waits.
- `IndexQueries` and `IndexQueryProperties`: the query record, the three equalities, the three hash codes, the query-hash inputs and `Equals(object)`.

The index wait checks every awaited index again on every pass, including indexes an earlier pass found fresh, and the model does the same.

## Model

| member | source | states |
|---|---|---|
| Storage.Put | src/Raven.Server/Documents/Handlers/BatchHandler.cs:266 | The document put succeeds iff the expected etag (if any) matches the stored one. On success it issues the next etag, stores the key under the command's collection, and keeps the store valid. On failure it reports a concurrency conflict on the key. |
| Storage.Delete | src/Raven.Server/Documents/Handlers/BatchHandler.cs:323 | The single delete succeeds iff the etag matches. It returns a result iff the key was stored. A missing key leaves the store unchanged. A present key is removed under the next etag, reporting its collection. |
| Storage.DeleteStartingWith | src/Raven.Server/Documents/Handlers/BatchHandler.cs:340 | The result is non-empty iff some key has the prefix. Exactly the prefixed keys are removed, and the others keep their documents. The results carry consecutive fresh etags. Their collections are exactly those of the removed documents. |
| Storage.PutAttachment | src/Raven.Server/Documents/Handlers/BatchHandler.cs:360 | The attachment put succeeds iff the expected etag matches the attachment's. It issues the next etag and leaves the documents alone. |
| Batch.PutReply | src/Raven.Server/Documents/Handlers/BatchHandler.cs:274-293 | A PUT reply always has Type, @id, @etag, @collection, @change-vector and @last-modified. It has @flags iff the flags are not None, and the values are those of the put result. |
| Batch.ExecutePut | src/Raven.Server/Documents/Handlers/BatchHandler.cs:264-297 | PUT commits iff the etag matches, otherwise it aborts with a conflict on the key. On commit, LastEtag becomes the new etag and the collection is added iff ModifiedCollections is allocated. The reply answers the command and carries its etag. The stream queue is untouched. |
| Batch.ExecutePatch | src/Raven.Server/Documents/Handlers/BatchHandler.cs:298-318 | When the patcher writes nothing, the store and LastEtag are unchanged and the reply's Etag is null. A write yields the next etag as LastEtag and in the reply. The patcher's collection is added iff it reports one, and the status is echoed. |
| Batch.ExecuteDelete | src/Raven.Server/Documents/Handlers/BatchHandler.cs:321-337 | The reply's Deleted flag is set iff the key was stored. A missing key leaves the store, LastEtag and the collections unchanged. A stored key is removed and its etag becomes LastEtag. |
| Batch.AbsorbDeleteResults | src/Raven.Server/Documents/Handlers/BatchHandler.cs:342-346 | After the loop, LastEtag is the last result's etag, or unchanged when there are no results. The collection set stays allocated iff it was, and it gains exactly the results' collections. |
| Batch.ExecuteDeletePrefix | src/Raven.Server/Documents/Handlers/BatchHandler.cs:338-354 | The prefix delete always commits. Deleted is set iff some key has the prefix, and exactly those keys are removed. LastEtag moves to the store's counter iff something was removed. The collections gain exactly the removed documents' collections. |
| Batch.ExecuteAttachmentPut | src/Raven.Server/Documents/Handlers/BatchHandler.cs:357-378 | With no queued stream the batch aborts and nothing is released. Otherwise the head stream is dequeued and released, whether the put commits or conflicts. A commit leaves the collections and documents unchanged and sets LastEtag to the new etag. The reply carries the stream's hash and size. |
| Batch.Step | src/Raven.Server/Documents/Handlers/BatchHandler.cs:262-379 | Every committed iteration appends one reply that answers its command. It keeps LastEtag and ModifiedCollections tracked, and dequeues and releases exactly one stream iff the command is an AttachmentPUT. |
| Batch.ExecuteCommands | src/Raven.Server/Documents/Handlers/BatchHandler.cs:258-381 | A committed fold has one reply per command in input order, after the earlier replies. LastEtag equals the store's counter if any etag was issued and is unchanged otherwise. The collections only grow. One stream is released per AttachmentPUT, FIFO. An aborted fold released a prefix of the queue. |
| Batch.AsWrittenCommands | src/Raven.Server/Documents/Handlers/BatchHandler.cs:259-261 | The loop as written visits Count - Offset commands (none when Offset >= Count), reading from position 2*Offset onwards. |
| Batch.SegmentCommands | src/Raven.Server/Documents/Handlers/BatchHandler.cs:231 | The segment's commands are the Count items starting at Offset. |
| Batch.ExecuteAsWritten | src/Raven.Server/Documents/Handlers/BatchHandler.cs:256-382 | As written, a committed Execute replies Count - Offset times, the j-th reply answering the j-th command the loop reads. |
| Batch.Execute | src/Raven.Server/Documents/Handlers/BatchHandler.cs:256-382 | Execute, read once per segment entry: on commit it makes exactly Count replies, reply j answering command Offset + j, with the fold's tracking guarantees. On abort the released streams are a prefix of the queue. |
| BatchProperties.ExecuteAppend | src/Raven.Server/Documents/Handlers/BatchHandler.cs:259-380 | Running cmds + [c] is running cmds and then one more iteration on the state reached. An abort stops the loop. |
| BatchProperties.DeleteOfMissingKeyKeepsLastEtag | src/Raven.Server/Documents/Handlers/BatchHandler.cs:321-336 | Appending a DELETE of a key that is not stored commits iff it names no expected etag. Without one it replies Deleted = false and leaves LastEtag and ModifiedCollections as the earlier commands left them. With one it aborts the batch with a conflict on the key. |
| BatchProperties.UnappliedPatchKeepsLastEtag | src/Raven.Server/Documents/Handlers/BatchHandler.cs:303-317 | Appending a PATCH whose expected etag matches, or is absent, and that the patcher does not apply, replies Etag = null and leaves LastEtag as before. |
| BatchProperties.PutCollectionsRecorded | src/Raven.Server/Documents/Handlers/BatchHandler.cs:272 | When ModifiedCollections is allocated, every PUT's collection is in it after a committed batch. |
| BatchProperties.AttachmentPutsLeaveCollections | src/Raven.Server/Documents/Handlers/BatchHandler.cs:357-378 | A batch of AttachmentPUTs never changes ModifiedCollections. |
| BatchProperties.UnconsumedStreamsNotReleased | src/Raven.Server/Documents/Handlers/BatchHandler.cs:384-391 | On commit, released + still-queued is the staged queue, and no queued stream is released. On abort, the released streams are a prefix of the queue and none of the rest is released. Dispose releases no stream. |
| BatchProperties.OffsetZeroReadsTheSegment | src/Raven.Server/Documents/Handlers/BatchHandler.cs:259-261 | With Offset = 0 the loop as written reads exactly the segment, and the two Executes coincide. |
| BatchProperties.ExecuteAtOffsetZeroRepliesPerCommand | src/Raven.Server/Documents/Handlers/BatchHandler.cs:258-381 | With Offset = 0 the as-written Execute returns Count replies, in input order. |
| BatchProperties.OffsetCountedTwice | src/Raven.Server/Documents/Handlers/BatchHandler.cs:259-261 | A segment holding positions 1 and 2 of a three-item array is visited by the loop at position 2 only. |
| BatchProperties.SecondPutObservesFirst | src/Raven.Server/Documents/Handlers/BatchHandler.cs:264-270 | Two PUTs of one key in a batch commit; the second observes the first's etag, and LastEtag is the second's etag. |
| BatchProperties.PutWithStaleEtagAborts | src/Raven.Server/Documents/Handlers/BatchHandler.cs:266 | A PUT expecting an etag on an empty store aborts the whole batch with a conflict. |
| BatchProperties.AttachmentPutWithoutStreamAborts | src/Raven.Server/Documents/Handlers/BatchHandler.cs:358 | An AttachmentPUT with no staged stream aborts the batch. |
| IndexWait.SelectIndexes | src/Raven.Server/Documents/Handlers/BatchHandler.cs:199-226 | An index is chosen iff it has no collections or shares one with the modified set. When specific names are requested, its name must also be among them. |
| IndexWait.RunPass | src/Raven.Server/Documents/Handlers/BatchHandler.cs:175-190 | A pass finds everything fresh iff no awaited index is stale. It throws iff throwing is on and some stale index's wait timed out. |
| IndexWait.WaitLoop | src/Raven.Server/Documents/Handlers/BatchHandler.cs:169-195 | The loop returns right after the first pass with no stale index. It throws only on a timed-out stale index with throwing on, naming the index count. Every earlier pass was neither fresh nor throwing. |
| IndexWait.WaitForIndexes | src/Raven.Server/Documents/Handlers/BatchHandler.cs:131-197 | The wait returns at once iff nothing was modified or no index is chosen. Otherwise it runs passes over the chosen indexes, within the fuel. It throws only when waitForIndexThrow is not false, naming the chosen count, and only in a pass where some chosen index was still stale after its wait timed out. It returns after the first pass in which every chosen index was fresh. Every earlier pass, and every pass while it is still waiting, found a stale chosen index and, when a throw was asked for, none that timed out. |
| IndexWait.FreshPassEndsWait | src/Raven.Server/Documents/Handlers/BatchHandler.cs:193-194 | Once some pass is fully fresh, the wait has ended by that pass. |
| IndexWait.FirstPassTimeoutThrows | src/Raven.Server/Documents/Handlers/BatchHandler.cs:184-189 | A chosen index that is stale and timed out in the first pass makes the wait throw at once, naming all chosen indexes, unless throwing is off. |
| ReplicationWait.ParseInt32 | src/Raven.Server/Documents/Handlers/BatchHandler.cs:113 | int.TryParse yields only values in the 32-bit range. |
| ReplicationWait.ParseFormatRoundTrip | src/Raven.Server/Documents/Handlers/BatchHandler.cs:113 | Parsing the decimal text of any 32-bit integer gives it back. |
| ReplicationWait.ResolveReplicaCount | src/Raven.Server/Documents/Handlers/BatchHandler.cs:105-115 | An absent count means 1 and "majority" means the majority size. Otherwise the count is the parsed integer, and the request fails naming numberOfReplicasToWaitFor iff the text does not parse. |
| ReplicationWait.WaitForReplication | src/Raven.Server/Documents/Handlers/BatchHandler.cs:103-129 | An invalid count fails before waiting. The wait times out, with the etag, requested and reached counts, iff fewer replicas than requested were reached and the throw flag (default true) is not false. |
| ReplicationWait.ExplicitCountIsHonoured | src/Raven.Server/Documents/Handlers/BatchHandler.cs:113-127 | Asking for n replicas as text waits for exactly n and throws iff fewer were reached with throwing on. |
| ReplicationWait.NonIntegerRejected | src/Raven.Server/Documents/Handlers/BatchHandler.cs:113-114 | A count that is not an integer is rejected as invalid. |
| BulkDocs.StageSections | src/Raven.Server/Documents/Handlers/BatchHandler.cs:38-58 | Every section after the first, up to int.MaxValue sections, is staged once in section order, with its hash and size. |
| BulkDocs.AfterCommit | src/Raven.Server/Documents/Handlers/BatchHandler.cs:78-98 | The replica wait runs first, only with waitForReplicasTimeout, and uses LastEtag. The response is ReplicationFailed iff it fails, with its error; a timeout there needs the throw flag not false and names LastEtag. Otherwise it is IndexesTimedOut (LastEtag and the index count) iff the index wait ran and timed out, which needs waitForIndexThrow not false. It is NoResponse iff the index wait ran and is still waiting. It is Created, with the reply list, iff the replica wait succeeded and the index wait did not run or returned. With no modified collection the index wait neither times out nor keeps waiting. |
| BulkDocs.Modified | src/Raven.Server/Documents/Handlers/BatchHandler.cs:65-67 | ModifiedCollections is allocated iff waitForIndexesTimeout is given, and it starts empty. |
| BulkDocs.Run | src/Raven.Server/Documents/Handlers/BatchHandler.cs:65-76 | A commit leaves ModifiedCollections allocated iff waitForIndexesTimeout is given. A commit replies once per command, reply j answering command j. |
| BulkDocsProperties.RunIsTheLoopAsWritten | src/Raven.Server/Documents/Handlers/BatchHandler.cs:68-70 | On the segments the parser yields, the handler's merged command is Execute's loop exactly as written. |
| BulkDocs.Handle | src/Raven.Server/Documents/Handlers/BatchHandler.cs:65-98 | The response is an abort (409 conflict or failed dequeue) iff the merged command aborted. A conflict answers with its key, the store is left unchanged, and the streams released so far are reported. A commit keeps the committed store and released streams and answers with the waits' response for the committed state. The committed store is valid and its etag counter has not gone back. The released streams are a prefix of the staged ones. |
| BulkDocs.CreatedAnswersEveryCommand | src/Raven.Server/Documents/Handlers/BatchHandler.cs:65-98 | A Created response carries one reply per command of the batch, in order, each answering its command. |
| BulkDocs.HandleBulkDocs | src/Raven.Server/Documents/Handlers/BatchHandler.cs:27-101 | A plain body is parsed whole and stages nothing. A multipart body takes its commands from section 0, or has none when there is no section. Sections 1 to n-1 are staged, each exactly once, in section order with their hash and size, where n is the section count capped at int.MaxValue. Section 0 is never staged. The staged queue is what the batch consumes, and the response is Handle's. |
| BulkDocsProperties.NoTimeoutsNoWaits | src/Raven.Server/Documents/Handlers/BatchHandler.cs:65-91 | Without either timeout, ModifiedCollections stays unallocated. The answer is Created with the replies on commit, or the abort. |
| BatchProperties.CollectionsNeverSteer | src/Raven.Server/Documents/Handlers/BatchHandler.cs:258-381 | Whether ModifiedCollections is allocated, and what it holds, never changes whether the loop commits, nor the store, replies, LastEtag or streams it leaves. |
| BulkDocsProperties.WaitsNeverChangeTheWrite | src/Raven.Server/Documents/Handlers/BatchHandler.cs:65-89 | A request with either timeout writes the same store, releases the same streams and aborts exactly when the same request without timeouts does. Its abort and any Created it sends are the plain request's. |
| BulkDocsProperties.ReplicasThenIndexes | src/Raven.Server/Documents/Handlers/BatchHandler.cs:78-89 | With both waits, the response is the replica-only response unless that is Created, and then it is the index-only response. |
| BulkDocsProperties.WrittenCollectionIsAwaited | src/Raven.Server/Documents/Handlers/BatchHandler.cs:65-89 | A PUT into Users under waitForIndexesTimeout, against any store, awaits a stuck Users index. It fails with the batch's etag (one past the store's counter) and the index count, after the commit. |
| BulkDocsProperties.UntouchedCollectionIsNotAwaited | src/Raven.Server/Documents/Handlers/BatchHandler.cs:136-146 | An index on a collection the batch did not touch is not awaited, and the request is Created. |
| BulkDocsProperties.NoThrowKeepsWaiting | src/Raven.Server/Documents/Handlers/BatchHandler.cs:139-195 | With waitForIndexThrow=false a stuck index keeps the request waiting for any number of passes. |
| IndexQueries.NewIndexQuery | src/Raven.Client/Documents/Queries/IndexQuery.cs:143-148 | A fresh query has PageSize int.MaxValue and PageSizeSet false. |
| IndexQueries.SetPageSize | src/Raven.Client/Documents/Queries/IndexQuery.cs:165-173 | Setting PageSize stores the value, sets PageSizeSet whatever the value, and changes nothing else. |
| IndexQueries.BaseEquals | src/Raven.Client/Documents/Queries/IndexQuery.cs:203-217 | Base equality holds iff other is not null and the two agree on every field except QueryParameters, SkipDuplicateChecking, ExplainScores and DisableCaching. |
| IndexQueries.GenericEquals | src/Raven.Client/Documents/Queries/IndexQuery.cs:94-106 | Generic equality holds iff other is not null and the two agree on every field except QueryParameters, ExplainScores and DisableCaching. |
| IndexQueries.QueryEquals | src/Raven.Client/Documents/Queries/IndexQuery.cs:43-52 | Query equality holds iff other is not null and the two agree on every field except QueryParameters and ExplainScores. |
| IndexQueries.QueryHashInputs | src/Raven.Client/Documents/Queries/IndexQuery.cs:22-41 | GetQueryHash writes exactly nine values. |
| IndexQueries.EqualsObjectAsWritten | src/Raven.Client/Documents/Queries/IndexQuery.cs:108-115 | As written, Equals(object) answers false for null and true for the same object. |
| IndexQueries.EqualsObject | src/Raven.Client/Documents/Queries/IndexQuery.cs:108-115 | The intended Equals(object) is false for null, and for another object it holds iff the typed query equality does. |
| IndexQueryProperties.EqualsReflexive | src/Raven.Client/Documents/Queries/IndexQuery.cs:96-99 | Every query equals itself at all three levels. |
| IndexQueryProperties.EqualsSymmetric | src/Raven.Client/Documents/Queries/IndexQuery.cs:203-217 | Equality is symmetric at all three levels. |
| IndexQueryProperties.EqualsTransitive | src/Raven.Client/Documents/Queries/IndexQuery.cs:203-217 | Equality is transitive at all three levels. |
| IndexQueryProperties.LevelsRefine | src/Raven.Client/Documents/Queries/IndexQuery.cs:43-106 | Concrete equality implies generic equality, which implies base equality. |
| IndexQueries.BaseHashCode | src/Raven.Client/Documents/Queries/IndexQuery.cs:228-240 | IndexQueryBase.GetHashCode over PageSizeSet, PageSize, Query, Start, WaitForNonStaleResultsTimeout and CutoffEtag. It has no contract of its own; its partner lemma BaseEqualsHashEqually proves that base-equal queries hash equally. |
| IndexQueries.GenericHashCode | src/Raven.Client/Documents/Queries/IndexQuery.cs:117-128 | IndexQuery<T>.GetHashCode, which adds SkipDuplicateChecking to the base hash. It has no contract of its own; its partner lemma GenericEqualsHashEqually proves that generic-equal queries hash equally. |
| IndexQueries.QueryHashCode | src/Raven.Client/Documents/Queries/IndexQuery.cs:54-62 | IndexQuery.GetHashCode, which adds DisableCaching to the generic hash. It has no contract of its own; its partner lemma QueryEqualsHashEqually proves that equal queries hash equally. |
| IndexQueries.GetQueryHash | src/Raven.Client/Documents/Queries/IndexQuery.cs:22-41 | The hasher's digest of the nine written values. It has no contract of its own; its partner lemma HashedFieldsDecideQueryHash proves that the nine hashed fields decide it. |
| IndexQueryProperties.BaseEqualsHashEqually | src/Raven.Client/Documents/Queries/IndexQuery.cs:228-240 | Queries equal at the base level have equal base GetHashCode, for any string hash. |
| IndexQueryProperties.GenericEqualsHashEqually | src/Raven.Client/Documents/Queries/IndexQuery.cs:117-128 | Queries equal at the generic level have equal generic GetHashCode, for any string hash. |
| IndexQueryProperties.QueryEqualsHashEqually | src/Raven.Client/Documents/Queries/IndexQuery.cs:54-62 | Queries equal at the concrete level have equal concrete GetHashCode, for any string hash. |
| IndexQueryProperties.HashedFieldsDecideQueryHash | src/Raven.Client/Documents/Queries/IndexQuery.cs:22-41 | Queries that agree on the nine hashed fields have the same query hash under any hasher. Queries that differ on one of them feed the hasher different inputs. |
| IndexQueryProperties.WaitForNonStaleResultsNotHashed | src/Raven.Client/Documents/Queries/IndexQuery.cs:228-240 | Flipping WaitForNonStaleResults keeps the base and concrete hash codes but breaks equality. |
| IndexQueryProperties.ExplainScoresAndParametersIgnored | src/Raven.Client/Documents/Queries/IndexQuery.cs:94-106 | Changing ExplainScores or QueryParameters keeps both equality and the hash code. |
| IndexQueryProperties.ExplicitDefaultPageSizeDiffers | src/Raven.Client/Documents/Queries/IndexQuery.cs:165-173 | Setting PageSize to int.MaxValue keeps the value of a fresh query, but the two are not equal at the base or concrete level. |
| IndexQueryProperties.SetPageSizeTwice | src/Raven.Client/Documents/Queries/IndexQuery.cs:165-173 | A second PageSize assignment overrides the first. |
| IndexQueryProperties.QueryHashInputsRoundTrip | src/Raven.Client/Documents/Queries/IndexQuery.cs:22-41 | Decoding the written stream recovers the nine fields, in the order Query, WaitForNonStaleResults, SkipDuplicateChecking, ExplainScores, timeout ticks, CutoffEtag, Start, PageSize, QueryParameters. |
| IndexQueryProperties.QueryHashInputsFaithful | src/Raven.Client/Documents/Queries/IndexQuery.cs:22-41 | Two queries write the same stream iff they agree on those nine fields. |
| IndexQueryProperties.QueryHashExcludes | src/Raven.Client/Documents/Queries/IndexQuery.cs:22-41 | DisableCaching and PageSizeSet never change the query hash. |
| IndexQueryProperties.QueryHashSeesWhatEqualityIgnores | src/Raven.Client/Documents/Queries/IndexQuery.cs:22-41 | Changing ExplainScores or QueryParameters changes what the query hash reads. |
| IndexQueryProperties.EqualsObjectRecurses | src/Raven.Client/Documents/Queries/IndexQuery.cs:108-115 | For two distinct objects the as-written Equals(object) never answers, however deep the calls go. |
| IndexQueryProperties.EqualsObjectAgreesWhenItAnswers | src/Raven.Client/Documents/Queries/IndexQuery.cs:108-115 | Whenever the as-written Equals(object) answers, it agrees with the intended one. |
| IndexQueryProperties.EqualsObjectIsQueryEquals | src/Raven.Client/Documents/Queries/IndexQuery.cs:108-115 | The intended Equals(object) is the typed query equality on the referenced queries. |

## Left out

- HTTP plumbing:
  - reading the Content-Type and the multipart boundary;
  - writing the JSON response;
  - status codes, which become `Response` tags (Created for 201, ConflictResponse for 409);
  - parsing timeouts and booleans from the query string. A present timeout is just `Some(ticks)`.
- `BatchRequestParser` is not part of this model. It is a `parse` oracle from bytes to a command segment starting at Offset 0, as an array segment over a freshly parsed array does. Parse errors are not modelled. Under that assumption the loop as written and the corrected loop coincide (BulkDocsProperties.RunIsTheLoopAsWritten), so the offset finding below does not reach the handler.
- `HugeDocuments.AddIfDocIsHuge` is left out; it is bookkeeping with no effect on replies, LastEtag or collections.
- The patcher's script semantics are an oracle. It returns the collection to write under (if any), the collection to report, and an opaque status.
- Storage engine internals are left out:
  - change vectors, last-modified and flags come from an oracle;
  - keys and collection names are compared exactly, not case-insensitively;
  - server-generated ids are not modelled;
  - attachments are checked only against their own etag, not against the owning document's existence.
- Attachment temp files and `CopyStreamToFileAndCalculateHash` are left out. A section is staged as its index, its `hash` (an oracle) and its size.
- A null `AttachmentStreams` queue and an empty one both abort with `DequeueFailed`. The source throws different exceptions (null reference versus empty queue), but both fail the batch.
- `Dispose` disposing parsed documents and returning the parse buffer is left out; it involves no attachment stream.
- `MergedBatchCommand.ToString` and `IndexQuery.ToString` are diagnostics.
- `async`/`await`, `Stopwatch`, `TimeSpan` and the indexing-batch awaiters are left out. Staleness and "timeout exceeded" are oracles indexed by pass number and by the timeout value.
- The transaction merger's scheduling is left out.
- `ReplicationLoader.WaitForReplicationAsync` and `GetSizeOfMajority` are oracles.
- IndexWait.WaitLoop: the unbounded `while (true)` is bounded by fuel. `StillWaiting` (the `NoResponse` response) means the loop has not ended within the fuel, not that it ended.
- ReplicationWait.WaitForReplication: an absent throwOnTimeoutInWaitForReplicas is taken as true, the `?? true` of BatchHandler.cs:116. That lookup passes no `required: false`, unlike the others; the query-string helper is not part of this model, and if it insists on the parameter by default, a request without it fails after the commit instead of defaulting to true.
- ReplicationWait.ParseInt32: leaves out culture-specific signs. It also leaves out the trailing NUL characters that .NET's parser tolerates.
- `QueryHashCalculator` is a hasher oracle over the written values, and `string.GetHashCode` is a string-hash oracle.
- `IndexQueryBase<T>.Equals(object)` (IndexQuery.cs lines 219-226) is overridden for every concrete query by `IndexQuery<T>.Equals(object)`, so it is not modelled separately.
- The model has one concrete query type. The `other is IndexQuery` test in `IndexQuery.Equals` cannot fail in it.
- The `ReferenceEquals(this, other)` shortcuts of the typed equalities coincide with field equality on one object; the reflexivity lemma covers them.
- `GetCustomQueryStringVariables` is left out.
- Batch.Execute: LastEtag is stated as the store's etag counter after the batch when any etag was issued. It is not stated as a search for the last etag-producing command. These agree because every write issues the next value of the counter.

## Findings

| source | as written | input that shows it | evidently intended | confidence | as-written member | corrected member |
|---|---|---|---|---|---|---|
| src/Raven.Server/Documents/Handlers/BatchHandler.cs:259-261 | The loop counter starts at Offset, stops at Count, and reads position Offset + counter, so the offset is added twice. | A segment with Offset = 1 and Count = 2 over three commands [a, b, c] executes only c, and replies once. | Execute the Count commands from Offset on: b and c. | medium, not executed; harmless when the parser always yields Offset 0 | Batch.ExecuteAsWritten (shown by BatchProperties.OffsetCountedTwice) | Batch.Execute |
| src/Raven.Client/Documents/Queries/IndexQuery.cs:108-115 | Inside the generic class `IndexQuery<T>`, the call `Equals((IndexQuery)obj)` cannot bind to `Equals(IndexQuery<T>)`, because `IndexQuery` does not convert to `IndexQuery<T>` for an open `T`. It therefore calls `Equals(object)` again. | Two distinct query objects a and b, with a.Equals((object)b): every call repeats itself and none answers. | Compare with the typed `IndexQuery.Equals`. | medium, not executed | IndexQueries.EqualsObjectAsWritten (shown by IndexQueryProperties.EqualsObjectRecurses) | IndexQueries.EqualsObject |

=== FILE: batch.dfy ===
/** MergedBatchCommand: the batch of parsed commands executed, in input order,
    inside one storage transaction, together with the staged attachment
    streams its AttachmentPUT commands consume. */
module Batch {
  import opened Wrappers
  import opened JsonValues
  import Storage

  /** A parsed command (BatchRequestParser.CommandData), one constructor per
      CommandType. A PUT's document body is abstracted to its collection. */
  datatype Command =
    | Put(key: string, etag: Option<int>, collection: string)
    | Patch(key: string, etag: Option<int>, script: string, patchIfMissing: Option<string>)
    | Delete(key: string, etag: Option<int>, keyPrefixed: bool)
    | AttachmentPut(key: string, etag: Option<int>, name: string, contentType: string)

  /** `CommandType.ToString()` as written into the reply's "Type" property. */
  function TypeName(c: Command): string {
    match c
    case Put(_, _, _) => "PUT"
    case Patch(_, _, _, _) => "PATCH"
    case Delete(_, _, _) => "DELETE"
    case AttachmentPut(_, _, _, _) => "AttachmentPUT"
  }

  // Metadata property names (Constants.Documents.Metadata).
  const IdKey := "@id"
  const EtagKey := "@etag"
  const CollectionKey := "@collection"
  const ChangeVectorKey := "@change-vector"
  const LastModifiedKey := "@last-modified"
  const FlagsKey := "@flags"

  /** The reply property that carries the command's key. */
  function KeyProperty(c: Command): string {
    if c.Put? || c.AttachmentPut? then IdKey else "Key"
  }

  /** A staged attachment (MergedBatchCommand.AttachmentStream): the multipart
      section it was read from, its content hash and its length. */
  datatype StagedStream = StagedStream(section: nat, hash: string, size: nat)

  datatype ChangeVectorEntry = ChangeVectorEntry(dbId: string, etag: int) {
    function ToJson(): Json {
      JObject([Prop("DbId", JString(dbId)), Prop("Etag", JInt(etag))])
    }
  }

  /** DocumentFlags as a bit mask; 0 is DocumentFlags.None. */
  type DocumentFlags = nat
  const FlagsNone: DocumentFlags := 0

  /** What the storage engine reports about a PUT beyond key, etag and
      collection; a null change vector is `None`. */
  datatype PutMeta = PutMeta(changeVector: Option<seq<ChangeVectorEntry>>, lastModified: int, flags: DocumentFlags)

  /** What the patcher decides: the collection the patched document is
      written under (None when the patch leaves storage untouched), the
      collection it reports, and its opaque status text. */
  datatype PatchDecision = PatchDecision(write: Option<string>, collection: Option<string>, status: string)

  /** Collaborators the model keeps abstract. */
  datatype Env = Env(
    putMeta: (string, nat) -> PutMeta,
    patcher: (Option<Storage.Doc>, Command) -> PatchDecision)

  /** The aggregate while it executes: the transaction's store, the replies so
      far, LastEtag, ModifiedCollections (None when it was never allocated),
      the staged streams still queued and the streams already released. */
  datatype ExecState = ExecState(
    store: Storage.Store,
    reply: seq<Json>,
    lastEtag: int,
    modified: Option<set<string>>,
    streams: seq<StagedStream>,
    released: seq<StagedStream>)

  /** Why a batch aborts: a ConcurrencyException, or a Dequeue on an empty
      (or never allocated) stream queue. */
  datatype BatchError = Conflict(key: string) | NoStagedStream

  /** A committed transaction keeps the final state; an aborted one keeps
      nothing but the streams that were released before the abort. */
  datatype ExecOutcome = Committed(state: ExecState) | Aborted(error: BatchError, released: seq<StagedStream>)

  /** A fresh aggregate: no replies, LastEtag at its default 0. */
  function Begin(store: Storage.Store, modified: Option<set<string>>, streams: seq<StagedStream>): ExecState {
    ExecState(store, [], 0, modified, streams, [])
  }

  /** `ModifiedCollections?.Add(c)`. */
  function AddCollection(m: Option<set<string>>, c: string): Option<set<string>> {
    if m.Some? then Some(m.value + {c}) else None
  }

  function ChangeVectorJson(cv: Option<seq<ChangeVectorEntry>>): seq<Json> {
    if cv.None? then [] else seq(|cv.value|, i requires 0 <= i < |cv.value| => cv.value[i].ToJson())
  }

  const PutMetadataNames: set<string> :=
    {"Type", IdKey, EtagKey, CollectionKey, ChangeVectorKey, LastModifiedKey}

  /** The metadata every PUT reply carries. */
  function PutProps(r: Storage.PutResult, meta: PutMeta): (ps: seq<Prop>)
    ensures Names(JObject(ps)) == PutMetadataNames
    ensures Prop("Type", JString("PUT")) in ps && Prop(IdKey, JString(r.key)) in ps
    ensures Prop(EtagKey, JInt(r.etag)) in ps && Prop(CollectionKey, JString(r.collection)) in ps
    ensures Prop(ChangeVectorKey, JArray(ChangeVectorJson(meta.changeVector))) in ps
    ensures Prop(LastModifiedKey, JInt(meta.lastModified)) in ps
  {
    var ps := [
      Prop("Type", JString("PUT")),
      Prop(IdKey, JString(r.key)),
      Prop(EtagKey, JInt(r.etag)),
      Prop(CollectionKey, JString(r.collection)),
      Prop(ChangeVectorKey, JArray(ChangeVectorJson(meta.changeVector))),
      Prop(LastModifiedKey, JInt(meta.lastModified))];
    assert forall i :: 0 <= i < 6 ==> ps[i] in ps;
    ps
  }

  /** The reply to a PUT: every metadata field always, Flags only when set. */
  function PutReply(r: Storage.PutResult, meta: PutMeta): (j: Json)
    ensures Names(j) == PutMetadataNames + (if meta.flags != FlagsNone then {FlagsKey} else {})
    ensures Has(j, "Type", JString("PUT")) && Has(j, IdKey, JString(r.key))
    ensures Has(j, EtagKey, JInt(r.etag)) && Has(j, CollectionKey, JString(r.collection))
    ensures Has(j, ChangeVectorKey, JArray(ChangeVectorJson(meta.changeVector)))
    ensures Has(j, LastModifiedKey, JInt(meta.lastModified))
    ensures meta.flags != FlagsNone ==> Has(j, FlagsKey, JInt(meta.flags))
  {
    var always := PutProps(r, meta);
    if meta.flags == FlagsNone then JObject(always)
    else
      var props := always + [Prop(FlagsKey, JInt(meta.flags))];
      assert Names(JObject(props)) == Names(JObject(always)) + {FlagsKey} by {
        assert forall p :: p in props <==> p in always || p == props[|always|];
      }
      JObject(props)
  }

  function EtagJson(e: Option<nat>): Json {
    if e.Some? then JInt(e.value) else JNull
  }

  function PatchReply(key: string, etag: Option<nat>, status: string): Json {
    JObject([
      Prop("Key", JString(key)),
      Prop("Etag", EtagJson(etag)),
      Prop("Type", JString("PATCH")),
      Prop("PatchStatus", JString(status))])
  }

  function DeleteReply(key: string, deleted: bool): Json {
    JObject([Prop("Key", JString(key)), Prop("Type", JString("DELETE")), Prop("Deleted", JBool(deleted))])
  }

  function AttachmentPutReply(r: Storage.AttachmentPutResult): Json {
    JObject([
      Prop("Type", JString("AttachmentPUT")),
      Prop(IdKey, JString(r.documentId)),
      Prop("Name", JString(r.name)),
      Prop(EtagKey, JInt(r.etag)),
      Prop("Hash", JString(r.hash)),
      Prop("ContentType", JString(r.contentType)),
      Prop("Size", JInt(r.size))])
  }

  /** The reply `j` answers command `c`: same type tag and same key. */
  predicate Answers(c: Command, j: Json) {
    Has(j, "Type", JString(TypeName(c))) && Has(j, KeyProperty(c), JString(c.key))
  }

  /** LastEtag tracks the highest etag issued between `before` and `after`:
      unchanged when the store issued none, otherwise equal to the store's
      counter, which is the etag of the latest mutation. */
  predicate EtagTracked(before: ExecState, after: ExecState) {
    || (after.store.lastEtag == before.store.lastEtag && after.lastEtag == before.lastEtag)
    || (after.store.lastEtag > before.store.lastEtag && after.lastEtag == after.store.lastEtag)
  }

  /** ModifiedCollections stays unallocated when it was, and only grows. */
  predicate CollectionsTracked(before: ExecState, after: ExecState) {
    && (after.modified.None? <==> before.modified.None?)
    && (before.modified.Some? ==> before.modified.value <= after.modified.value)
  }

  /** The first `n` queued streams were dequeued, in order, and released. */
  predicate StreamsConsumed(before: ExecState, after: ExecState, n: nat) {
    && n <= |before.streams|
    && after.streams == before.streams[n..]
    && after.released == before.released + before.streams[..n]
  }

  /** One reply was appended, and it answers `c`. */
  predicate RepliedTo(before: ExecState, after: ExecState, c: Command) {
    && |after.reply| == |before.reply| + 1
    && after.reply[..|before.reply|] == before.reply
    && Answers(c, after.reply[|before.reply|])
  }

  function LastReply(s: ExecState): Json
    requires |s.reply| > 0
  {
    s.reply[|s.reply| - 1]
  }

  /** PUT (BatchHandler.cs lines 264-297). */
  function ExecutePut(st: ExecState, cmd: Command, env: Env): (r: ExecOutcome)
    requires cmd.Put? && Storage.Valid(st.store)
    ensures r.Committed? <==> Storage.EtagMatches(Storage.DocEtag(st.store, cmd.key), cmd.etag)
    ensures r.Aborted? ==> r == Aborted(Conflict(cmd.key), st.released)
    ensures r.Committed? ==>
      var s := r.state;
      && Storage.Valid(s.store)
      && s.lastEtag == s.store.lastEtag == st.store.lastEtag + 1
      && s.store.docs == st.store.docs[cmd.key := Storage.Doc(s.lastEtag, cmd.collection)]
      && s.modified == AddCollection(st.modified, cmd.collection)
      && RepliedTo(st, s, cmd)
      && Names(LastReply(s)) == PutMetadataNames + (if env.putMeta(cmd.key, s.lastEtag).flags != FlagsNone then {FlagsKey} else {})
      && Has(LastReply(s), EtagKey, JInt(s.lastEtag))
      && s.streams == st.streams && s.released == st.released
  {
    match Storage.Put(st.store, cmd.key, cmd.etag, cmd.collection)
    case Failure(_) => Aborted(Conflict(cmd.key), st.released)
    case Success(w) =>
      var reply := PutReply(w.result, env.putMeta(cmd.key, w.result.etag));
      Committed(st.(
        store := w.store,
        lastEtag := w.result.etag,
        modified := AddCollection(st.modified, w.result.collection),
        reply := st.reply + [reply]))
  }

  /** PATCH (BatchHandler.cs lines 298-318): the patcher decides whether the
      document changes; only a changed document yields an etag. */
  function ExecutePatch(st: ExecState, cmd: Command, env: Env): (r: ExecOutcome)
    requires cmd.Patch? && Storage.Valid(st.store)
    ensures r.Committed? <==> Storage.EtagMatches(Storage.DocEtag(st.store, cmd.key), cmd.etag)
    ensures r.Aborted? ==> r == Aborted(Conflict(cmd.key), st.released)
    ensures r.Committed? ==>
      var s := r.state;
      var d := env.patcher(if cmd.key in st.store.docs then Some(st.store.docs[cmd.key]) else None, cmd);
      && Storage.Valid(s.store)
      && RepliedTo(st, s, cmd)
      && (d.write.None? ==> s.store == st.store && s.lastEtag == st.lastEtag
                            && Has(LastReply(s), "Etag", JNull))
      && (d.write.Some? ==> s.lastEtag == s.store.lastEtag == st.store.lastEtag + 1
                            && Has(LastReply(s), "Etag", JInt(s.lastEtag)))
      && s.modified == (if d.collection.Some? then AddCollection(st.modified, d.collection.value) else st.modified)
      && Has(LastReply(s), "PatchStatus", JString(d.status))
      && s.streams == st.streams && s.released == st.released
  {
    var current := if cmd.key in st.store.docs then Some(st.store.docs[cmd.key]) else None;
    if !Storage.EtagMatches(Storage.DocEtag(st.store, cmd.key), cmd.etag) then
      Aborted(Conflict(cmd.key), st.released)
    else
      var d := env.patcher(current, cmd);
      var (store, etag) :=
        if d.write.Some? then
          var w := Storage.WriteDocument(st.store, cmd.key, d.write.value);
          (w.store, Some(w.result))
        else (st.store, None);
      var modified := if d.collection.Some? then AddCollection(st.modified, d.collection.value) else st.modified;
      Committed(st.(
        store := store,
        lastEtag := if etag.Some? then etag.value else st.lastEtag,
        modified := modified,
        reply := st.reply + [PatchReply(cmd.key, etag, d.status)]))
  }

  /** Single-key DELETE (BatchHandler.cs lines 321-337). */
  function ExecuteDelete(st: ExecState, cmd: Command): (r: ExecOutcome)
    requires cmd.Delete? && !cmd.keyPrefixed && Storage.Valid(st.store)
    ensures r.Committed? <==> Storage.EtagMatches(Storage.DocEtag(st.store, cmd.key), cmd.etag)
    ensures r.Aborted? ==> r == Aborted(Conflict(cmd.key), st.released)
    ensures r.Committed? ==>
      var s := r.state;
      && Storage.Valid(s.store)
      && RepliedTo(st, s, cmd)
      && Has(LastReply(s), "Deleted", JBool(cmd.key in st.store.docs))
      && (cmd.key !in st.store.docs ==>
            s.store == st.store && s.lastEtag == st.lastEtag && s.modified == st.modified)
      && (cmd.key in st.store.docs ==>
            && s.store.docs == st.store.docs - {cmd.key}
            && s.lastEtag == s.store.lastEtag == st.store.lastEtag + 1
            && s.modified == AddCollection(st.modified, st.store.docs[cmd.key].collection))
      && s.streams == st.streams && s.released == st.released
  {
    match Storage.Delete(st.store, cmd.key, cmd.etag)
    case Failure(_) => Aborted(Conflict(cmd.key), st.released)
    case Success(w) =>
      var deleted := w.result;
      Committed(st.(
        store := w.store,
        lastEtag := if deleted.Some? then deleted.value.etag else st.lastEtag,
        modified := if deleted.Some? then AddCollection(st.modified, deleted.value.collection) else st.modified,
        reply := st.reply + [DeleteReply(cmd.key, deleted.Some?)]))
  }

  /** The loop over the prefix delete's results (BatchHandler.cs lines
      342-346): every removed document overwrites LastEtag and adds its
      collection, in order. */
  function AbsorbDeleteResults(results: seq<Storage.DeleteResult>, lastEtag: int, modified: Option<set<string>>)
    : (r: (int, Option<set<string>>))
    ensures r.0 == (if |results| == 0 then lastEtag else results[|results| - 1].etag)
    ensures r.1.Some? <==> modified.Some?
    ensures r.1.Some? ==> r.1.value == modified.value + (set d | d in results :: d.collection)
  {
    if |results| == 0 then (lastEtag, modified)
    else
      var r := AbsorbDeleteResults(results[1..], results[0].etag, AddCollection(modified, results[0].collection));
      assert forall d :: d in results <==> d == results[0] || d in results[1..];
      r
  }

  /** Prefix DELETE (BatchHandler.cs lines 338-354): unconditional; replies
      Deleted = (at least one document was removed). */
  function ExecuteDeletePrefix(st: ExecState, cmd: Command): (r: ExecOutcome)
    requires cmd.Delete? && cmd.keyPrefixed && Storage.Valid(st.store)
    ensures r.Committed?
    ensures
      var s := r.state;
      var removedAny := exists k :: k in st.store.docs && cmd.key <= k;
      && Storage.Valid(s.store)
      && RepliedTo(st, s, cmd)
      && Has(LastReply(s), "Deleted", JBool(removedAny))
      && (forall k :: k in s.store.docs <==> k in st.store.docs && !(cmd.key <= k))
      && (!removedAny ==> s.lastEtag == st.lastEtag && s.store.lastEtag == st.store.lastEtag)
      && (removedAny ==> s.lastEtag == s.store.lastEtag > st.store.lastEtag)
      && (s.modified.Some? <==> st.modified.Some?)
      && (s.modified.Some? ==> s.modified.value == st.modified.value + Storage.CollectionsWithPrefix(st.store, cmd.key))
      && s.streams == st.streams && s.released == st.released
  {
    var w := Storage.DeleteStartingWith(st.store, cmd.key);
    var (lastEtag, modified) := AbsorbDeleteResults(w.result, st.lastEtag, st.modified);
    Committed(st.(
      store := w.store,
      lastEtag := lastEtag,
      modified := modified,
      reply := st.reply + [DeleteReply(cmd.key, |w.result| > 0)]))
  }

  /** AttachmentPUT (BatchHandler.cs lines 357-378): dequeues the next staged
      stream, stores the attachment, and releases the stream when the storage
      call returns, whether it succeeded or threw. */
  function ExecuteAttachmentPut(st: ExecState, cmd: Command): (r: ExecOutcome)
    requires cmd.AttachmentPut? && Storage.Valid(st.store)
    ensures |st.streams| == 0 ==> r == Aborted(NoStagedStream, st.released)
    ensures |st.streams| > 0 ==>
      var a := st.streams[0];
      && (r.Committed? <==> Storage.EtagMatches(Storage.AttachmentEtag(st.store, Storage.AttachmentKey(cmd.key, cmd.name)), cmd.etag))
      && (r.Aborted? ==> r == Aborted(Conflict(cmd.key), st.released + [a]))
      && (r.Committed? ==>
            var s := r.state;
            && Storage.Valid(s.store)
            && RepliedTo(st, s, cmd)
            && s.streams == st.streams[1..]
            && s.released == st.released + [a]
            && s.modified == st.modified
            && s.lastEtag == s.store.lastEtag == st.store.lastEtag + 1
            && s.store.docs == st.store.docs
            && Has(LastReply(s), "Hash", JString(a.hash))
            && Has(LastReply(s), "Size", JInt(a.size)))
  {
    if |st.streams| == 0 then Aborted(NoStagedStream, st.released)
    else
      var a := st.streams[0];
      var released := st.released + [a];
      match Storage.PutAttachment(st.store, cmd.key, cmd.name, cmd.contentType, a.hash, a.size, cmd.etag)
      case Failure(_) => Aborted(Conflict(cmd.key), released)
      case Success(w) =>
        Committed(st.(
          store := w.store,
          lastEtag := w.result.etag,
          reply := st.reply + [AttachmentPutReply(w.result)],
          streams := st.streams[1..],
          released := released))
  }

  /** The number of staged streams a command dequeues. */
  function Dequeues(c: Command): nat {
    if c.AttachmentPut? then 1 else 0
  }

  /** What a committed iteration guarantees: one reply answering `c`,
      LastEtag and ModifiedCollections tracked, one stream consumed per
      AttachmentPUT, and AttachmentPUT adds no collection. */
  predicate StepCommitted(st: ExecState, s: ExecState, c: Command) {
    && Storage.Valid(s.store)
    && RepliedTo(st, s, c)
    && EtagTracked(st, s)
    && CollectionsTracked(st, s)
    && StreamsConsumed(st, s, Dequeues(c))
    && (c.AttachmentPut? ==> s.modified == st.modified)
  }

  /** An aborted iteration released nothing new, or the AttachmentPUT's stream. */
  predicate StepAborted(st: ExecState, released: seq<StagedStream>, c: Command) {
    || released == st.released
    || (c.AttachmentPut? && |st.streams| > 0 && released == st.released + [st.streams[0]])
  }

  predicate StepSound(st: ExecState, c: Command, r: ExecOutcome) {
    && (r.Committed? ==> StepCommitted(st, r.state, c))
    && (r.Aborted? ==> StepAborted(st, r.released, c))
  }

  lemma PutStepSound(st: ExecState, cmd: Command, env: Env)
    requires cmd.Put? && Storage.Valid(st.store)
    ensures StepSound(st, cmd, ExecutePut(st, cmd, env))
  {
    var r := ExecutePut(st, cmd, env);
    if r.Committed? {
      assert EtagTracked(st, r.state);
      QueueKeptCommitSound(st, r.state, cmd);
    }
  }

  lemma PatchStepSound(st: ExecState, cmd: Command, env: Env)
    requires cmd.Patch? && Storage.Valid(st.store)
    ensures StepSound(st, cmd, ExecutePatch(st, cmd, env))
  {
  }

  lemma DeleteStepSound(st: ExecState, cmd: Command)
    requires cmd.Delete? && !cmd.keyPrefixed && Storage.Valid(st.store)
    ensures StepSound(st, cmd, ExecuteDelete(st, cmd))
  {
  }

  lemma DeletePrefixStepSound(st: ExecState, cmd: Command)
    requires cmd.Delete? && cmd.keyPrefixed && Storage.Valid(st.store)
    ensures StepSound(st, cmd, ExecuteDeletePrefix(st, cmd))
  {
    var s := ExecuteDeletePrefix(st, cmd).state;
    assert EtagTracked(st, s);
    assert CollectionsTracked(st, s) by {
      assert st.modified.Some? ==> st.modified.value <= s.modified.value;
    }
    QueueKeptCommitSound(st, s, cmd);
  }

  /** A committed iteration that left the stream queue alone is sound once
      its etag and collections are tracked. */
  lemma QueueKeptCommitSound(st: ExecState, s: ExecState, c: Command)
    requires !c.AttachmentPut? && Storage.Valid(s.store) && RepliedTo(st, s, c)
    requires EtagTracked(st, s) && CollectionsTracked(st, s)
    requires s.streams == st.streams && s.released == st.released
    ensures StepCommitted(st, s, c)
  {
    assert st.streams[0..] == st.streams && st.streams[..0] == [];
  }

  lemma AttachmentPutStepSound(st: ExecState, cmd: Command)
    requires cmd.AttachmentPut? && Storage.Valid(st.store)
    ensures StepSound(st, cmd, ExecuteAttachmentPut(st, cmd))
  {
    if |st.streams| > 0 {
      assert st.streams[..1] == [st.streams[0]];
    }
  }

  /** One iteration of Execute's loop: the switch on the command type. */
  function Step(st: ExecState, cmd: Command, env: Env): (r: ExecOutcome)
    requires Storage.Valid(st.store)
    ensures r.Committed? ==> StepCommitted(st, r.state, cmd)
    ensures r.Aborted? ==> StepAborted(st, r.released, cmd)
    ensures r == Aborted(NoStagedStream, st.released) <== cmd.AttachmentPut? && |st.streams| == 0
  {
    match cmd
    case Put(_, _, _) =>
      PutStepSound(st, cmd, env);
      ExecutePut(st, cmd, env)
    case Patch(_, _, _, _) =>
      PatchStepSound(st, cmd, env);
      ExecutePatch(st, cmd, env)
    case Delete(_, _, prefixed) =>
      if prefixed then
        DeletePrefixStepSound(st, cmd);
        ExecuteDeletePrefix(st, cmd)
      else
        DeleteStepSound(st, cmd);
        ExecuteDelete(st, cmd)
    case AttachmentPut(_, _, _, _) =>
      AttachmentPutStepSound(st, cmd);
      ExecuteAttachmentPut(st, cmd)
  }

  /** The number of AttachmentPUT commands in `cmds`. */
  function AttachmentPuts(cmds: seq<Command>): nat {
    if |cmds| == 0 then 0 else Dequeues(cmds[0]) + AttachmentPuts(cmds[1..])
  }

  lemma RepliesCompose(cmds: seq<Command>, st: ExecState, s1: ExecState, s: ExecState)
    requires |cmds| > 0 && RepliedTo(st, s1, cmds[0])
    requires
      var rest := cmds[1..];
      && |s.reply| == |s1.reply| + |rest|
      && s.reply[..|s1.reply|] == s1.reply
      && (forall i :: 0 <= i < |rest| ==> Answers(rest[i], s.reply[|s1.reply| + i]))
    ensures |s.reply| == |st.reply| + |cmds| && s.reply[..|st.reply|] == st.reply
    ensures forall i :: 0 <= i < |cmds| ==> Answers(cmds[i], s.reply[|st.reply| + i])
  {
    var rest := cmds[1..];
    assert s.reply[..|st.reply|] == s1.reply[..|st.reply|];
    assert s.reply[|st.reply|] == s1.reply[|st.reply|];
    forall i | 1 <= i < |cmds|
      ensures Answers(cmds[i], s.reply[|st.reply| + i])
    {
      assert cmds[i] == rest[i - 1];
      assert Answers(rest[i - 1], s.reply[|s1.reply| + (i - 1)]);
    }
  }

  lemma TrackingComposes(st: ExecState, s1: ExecState, s: ExecState)
    requires EtagTracked(st, s1) && EtagTracked(s1, s)
    requires CollectionsTracked(st, s1) && CollectionsTracked(s1, s)
    ensures EtagTracked(st, s) && CollectionsTracked(st, s)
  {
  }

  lemma StreamsCompose(st: ExecState, s1: ExecState, s: ExecState, m: nat, n: nat)
    requires StreamsConsumed(st, s1, m) && StreamsConsumed(s1, s, n)
    ensures StreamsConsumed(st, s, m + n)
  {
    var a, b, c := st.released, st.streams[..m], st.streams[m..][..n];
    assert s.streams == st.streams[m + n..] by {
      assert st.streams[m..][n..] == st.streams[m + n..];
    }
    assert s.released == (a + b) + c;
    assert (a + b) + c == a + (b + c);
    assert b + c == st.streams[..m + n];
  }

  lemma AbortedStreamsCompose(st: ExecState, s1: ExecState, released: seq<StagedStream>, m: nat)
    requires StreamsConsumed(st, s1, m)
    requires |s1.released| <= |released| <= |s1.released| + |s1.streams|
    requires released == s1.released + s1.streams[..|released| - |s1.released|]
    ensures |st.released| <= |released| <= |st.released| + |st.streams|
    ensures released == st.released + st.streams[..|released| - |st.released|]
  {
    var n := |released| - |s1.released|;
    assert st.streams[..m] + st.streams[m..][..n] == st.streams[..m + n];
  }

  /** What a committed run of `cmds` from `st` to `s` guarantees: one reply
      per command, in input order, after the earlier replies; LastEtag and
      ModifiedCollections tracked; exactly one staged stream dequeued and
      released per AttachmentPUT, in FIFO order. */
  predicate FoldCommitted(cmds: seq<Command>, st: ExecState, s: ExecState) {
    && Storage.Valid(s.store)
    && |s.reply| == |st.reply| + |cmds|
    && s.reply[..|st.reply|] == st.reply
    && (forall i :: 0 <= i < |cmds| ==> Answers(cmds[i], s.reply[|st.reply| + i]))
    && EtagTracked(st, s)
    && CollectionsTracked(st, s)
    && StreamsConsumed(st, s, AttachmentPuts(cmds))
  }

  /** An aborted run released a prefix of the queued streams and nothing else. */
  predicate FoldAborted(st: ExecState, released: seq<StagedStream>) {
    && |st.released| <= |released| <= |st.released| + |st.streams|
    && released == st.released + st.streams[..|released| - |st.released|]
  }

  lemma CommittedComposes(cmds: seq<Command>, st: ExecState, s1: ExecState, s: ExecState)
    requires |cmds| > 0
    requires Storage.Valid(s1.store)
    requires RepliedTo(st, s1, cmds[0]) && EtagTracked(st, s1) && CollectionsTracked(st, s1)
    requires StreamsConsumed(st, s1, Dequeues(cmds[0]))
    requires FoldCommitted(cmds[1..], s1, s)
    ensures FoldCommitted(cmds, st, s)
  {
    RepliesCompose(cmds, st, s1, s);
    TrackingComposes(st, s1, s);
    StreamsCompose(st, s1, s, Dequeues(cmds[0]), AttachmentPuts(cmds[1..]));
    assert AttachmentPuts(cmds) == Dequeues(cmds[0]) + AttachmentPuts(cmds[1..]);
  }

  lemma AbortedComposes(st: ExecState, s1: ExecState, released: seq<StagedStream>, m: nat)
    requires StreamsConsumed(st, s1, m) && FoldAborted(s1, released)
    ensures FoldAborted(st, released)
  {
    AbortedStreamsCompose(st, s1, released, m);
  }

  /** Execute's loop as a fold over the commands, in input order. A conflict
      (or a missing staged stream) aborts the whole batch. */
  function ExecuteCommands(cmds: seq<Command>, st: ExecState, env: Env): (r: ExecOutcome)
    requires Storage.Valid(st.store)
    decreases |cmds|
    ensures r.Committed? ==> FoldCommitted(cmds, st, r.state)
    ensures r.Aborted? ==> FoldAborted(st, r.released)
  {
    if |cmds| == 0 then
      assert st.reply[..|st.reply|] == st.reply;
      Committed(st)
    else
      var o := Step(st, cmds[0], env);
      if o.Aborted? then
        assert o.released == st.released + st.streams[..|o.released| - |st.released|];
        o
      else
        var r := ExecuteCommands(cmds[1..], o.state, env);
        if r.Committed? then
          CommittedComposes(cmds, st, o.state, r.state);
          r
        else
          AbortedComposes(st, o.state, r.released, Dequeues(cmds[0]));
          r
  }

  /** ParsedCommands, an ArraySegment: `count` commands of `items` starting at
      `offset`, which the segment's constructor keeps inside the array. */
  datatype CommandSegment = CommandSegment(items: seq<Command>, offset: nat, count: nat)

  type Segment = s: CommandSegment | (s.offset + s.count <= |s.items|) witness CommandSegment([], 0, 0)

  /** `default(ArraySegment<CommandData>)`: no commands. */
  const EmptySegment: Segment := CommandSegment([], 0, 0)

  /** The array positions Execute's loop reads as written: `i` runs from
      Offset up to Count and the loop reads `Array[Offset + i]`. */
  function LoopPositions(seg: Segment, i: nat): (r: seq<nat>)
    requires seg.offset <= i
    decreases seg.count - i
    ensures |r| == (if i < seg.count then seg.count - i else 0)
    ensures forall j :: 0 <= j < |r| ==> r[j] == seg.offset + i + j && r[j] < |seg.items|
  {
    if i >= seg.count then [] else [seg.offset + i] + LoopPositions(seg, i + 1)
  }

  /** The commands Execute's loop visits, as written. */
  function AsWrittenCommands(seg: Segment): (r: seq<Command>)
    ensures |r| == (if seg.offset < seg.count then seg.count - seg.offset else 0)
    ensures forall j :: 0 <= j < |r| ==> r[j] == seg.items[2 * seg.offset + j]
  {
    var positions := LoopPositions(seg, seg.offset);
    seq(|positions|, j requires 0 <= j < |positions| => seg.items[positions[j]])
  }

  /** The commands the segment holds, which the loop evidently means to visit. */
  function SegmentCommands(seg: Segment): (r: seq<Command>)
    ensures |r| == seg.count
    ensures forall j :: 0 <= j < |r| ==> r[j] == seg.items[seg.offset + j]
  {
    seg.items[seg.offset..seg.offset + seg.count]
  }

  /** A committed fold from an empty reply answers `cmds` one by one. */
  lemma FoldAnswers(cmds: seq<Command>, st: ExecState, s: ExecState)
    requires st.reply == [] && FoldCommitted(cmds, st, s)
    ensures |s.reply| == |cmds|
    ensures forall j :: 0 <= j < |cmds| ==> Answers(cmds[j], s.reply[j])
  {
    forall j | 0 <= j < |cmds|
      ensures Answers(cmds[j], s.reply[j])
    {
      assert Answers(cmds[j], s.reply[|st.reply| + j]);
    }
  }

  /** MergedBatchCommand.Execute as written: starts a fresh reply list and
      replies to `Count - Offset` commands read from position `2 * Offset`. */
  function ExecuteAsWritten(seg: Segment, st: ExecState, env: Env): (r: ExecOutcome)
    requires Storage.Valid(st.store)
    ensures r.Committed? ==>
      && |r.state.reply| == (if seg.offset < seg.count then seg.count - seg.offset else 0)
      && (forall j :: 0 <= j < |r.state.reply| ==> Answers(AsWrittenCommands(seg)[j], r.state.reply[j]))
  {
    var cmds := AsWrittenCommands(seg);
    var r := ExecuteCommands(cmds, st.(reply := []), env);
    if r.Committed? then
      FoldAnswers(cmds, st.(reply := []), r.state);
      r
    else r
  }

  /** MergedBatchCommand.Execute with the segment read once: a fresh reply
      list with one reply per command of the segment, in order; the value
      Execute returns is the length of that list. */
  function Execute(seg: Segment, st: ExecState, env: Env): (r: ExecOutcome)
    requires Storage.Valid(st.store)
    ensures r.Committed? ==>
      && |r.state.reply| == seg.count
      && (forall j :: 0 <= j < seg.count ==> Answers(seg.items[seg.offset + j], r.state.reply[j]))
      && FoldCommitted(SegmentCommands(seg), st.(reply := []), r.state)
    ensures r.Aborted? ==> FoldAborted(st, r.released)
  {
    var cmds := SegmentCommands(seg);
    var r := ExecuteCommands(cmds, st.(reply := []), env);
    if r.Committed? then
      SegmentAnswers(seg, st.(reply := []), r.state);
      r
    else r
  }

  /** FoldAnswers, with the commands read from the segment. */
  lemma SegmentAnswers(seg: Segment, st: ExecState, s: ExecState)
    requires st.reply == [] && FoldCommitted(SegmentCommands(seg), st, s)
    ensures |s.reply| == seg.count
    ensures forall j :: 0 <= j < seg.count ==> Answers(seg.items[seg.offset + j], s.reply[j])
  {
    var cmds := SegmentCommands(seg);
    FoldAnswers(cmds, st, s);
    forall j | 0 <= j < seg.count
      ensures Answers(seg.items[seg.offset + j], s.reply[j])
    {
      assert cmds[j] == seg.items[seg.offset + j];
    }
  }
}

=== FILE: batch_properties.dfy ===
/** Properties of MergedBatchCommand.Execute that relate several commands or
    several runs of the fold. */
module BatchProperties {
  import opened Wrappers
  import opened JsonValues
  import Storage
  import opened Batch

  /** Running `cmds + [c]` is running `cmds` and then one more loop iteration. */
  lemma {:induction false} ExecuteAppend(cmds: seq<Command>, c: Command, st: ExecState, env: Env)
    requires Storage.Valid(st.store)
    decreases |cmds|
    ensures ExecuteCommands(cmds + [c], st, env) ==
      match ExecuteCommands(cmds, st, env)
      case Committed(s) => Step(s, c, env)
      case Aborted(e, released) => Aborted(e, released)
  {
    if |cmds| == 0 {
      assert cmds + [c] == [c];
      assert [c][1..] == [];
    } else {
      assert (cmds + [c])[0] == cmds[0];
      assert (cmds + [c])[1..] == cmds[1..] + [c];
      var o := Step(st, cmds[0], env);
      if o.Committed? {
        ExecuteAppend(cmds[1..], c, o.state, env);
      }
    }
  }

  /** A batch of one command is one loop iteration. */
  lemma SingleCommand(c: Command, st: ExecState, env: Env)
    requires Storage.Valid(st.store)
    ensures ExecuteCommands([c], st, env) == Step(st, c, env)
  {
    assert [c][1..] == [];
  }

  /** A single-key DELETE of a key that is not stored commits iff it names
      no expected etag. Then it replies Deleted = false and leaves LastEtag
      and ModifiedCollections as the earlier commands left them; with an
      expected etag it aborts the batch with a conflict on the key. */
  lemma DeleteOfMissingKeyKeepsLastEtag(cmds: seq<Command>, key: string, etag: Option<int>,
                                        st: ExecState, env: Env)
    requires Storage.Valid(st.store)
    requires ExecuteCommands(cmds, st, env).Committed?
    requires key !in ExecuteCommands(cmds, st, env).state.store.docs
    ensures
      var before := ExecuteCommands(cmds, st, env).state;
      var after := ExecuteCommands(cmds + [Delete(key, etag, false)], st, env);
      && (after.Committed? <==> etag.None?)
      && (etag.Some? ==> after == Aborted(Conflict(key), before.released))
      && (etag.None? ==>
            && after.state.lastEtag == before.lastEtag
            && after.state.modified == before.modified
            && Has(LastReply(after.state), "Deleted", JBool(false)))
  {
    var d := Delete(key, etag, false);
    var before := ExecuteCommands(cmds, st, env).state;
    ExecuteAppend(cmds, d, st, env);
    assert ExecuteCommands(cmds + [d], st, env) == Step(before, d, env) == ExecuteDelete(before, d);
  }

  /** A PATCH whose expected etag matches (or is absent) and that the
      patcher leaves unapplied replies Etag = null and leaves LastEtag as the
      earlier commands left it. */
  lemma UnappliedPatchKeepsLastEtag(cmds: seq<Command>, patch: Command, st: ExecState, env: Env)
    requires Storage.Valid(st.store) && patch.Patch?
    requires ExecuteCommands(cmds, st, env).Committed?
    requires
      var before := ExecuteCommands(cmds, st, env).state;
      Storage.EtagMatches(Storage.DocEtag(before.store, patch.key), patch.etag)
    requires
      var before := ExecuteCommands(cmds, st, env).state;
      var current := if patch.key in before.store.docs then Some(before.store.docs[patch.key]) else None;
      env.patcher(current, patch).write.None?
    ensures
      var before := ExecuteCommands(cmds, st, env).state;
      var after := ExecuteCommands(cmds + [patch], st, env);
      && after.Committed?
      && after.state.lastEtag == before.lastEtag
      && Has(LastReply(after.state), "Etag", JNull)
  {
    ExecuteAppend(cmds, patch, st, env);
  }

  /** Every PUT's collection is recorded when ModifiedCollections was allocated. */
  lemma {:induction false} PutCollectionsRecorded(cmds: seq<Command>, st: ExecState, env: Env)
    requires Storage.Valid(st.store) && st.modified.Some?
    requires ExecuteCommands(cmds, st, env).Committed?
    decreases |cmds|
    ensures
      var s := ExecuteCommands(cmds, st, env).state;
      s.modified.Some? && forall i :: 0 <= i < |cmds| && cmds[i].Put? ==> cmds[i].collection in s.modified.value
  {
    if |cmds| > 0 {
      var o := Step(st, cmds[0], env);
      assert o.Committed?;
      PutCollectionsRecorded(cmds[1..], o.state, env);
      var s := ExecuteCommands(cmds, st, env).state;
      forall i | 0 <= i < |cmds| && cmds[i].Put?
        ensures cmds[i].collection in s.modified.value
      {
        if i == 0 {
          assert o.state.modified == AddCollection(st.modified, cmds[0].collection);
        } else {
          assert cmds[i] == cmds[1..][i - 1];
        }
      }
    }
  }

  /** AttachmentPUT never touches ModifiedCollections. */
  lemma {:induction false} AttachmentPutsLeaveCollections(cmds: seq<Command>, st: ExecState, env: Env)
    requires Storage.Valid(st.store)
    requires forall i :: 0 <= i < |cmds| ==> cmds[i].AttachmentPut?
    decreases |cmds|
    ensures ExecuteCommands(cmds, st, env).Committed? ==>
      ExecuteCommands(cmds, st, env).state.modified == st.modified
  {
    if |cmds| > 0 {
      var o := Step(st, cmds[0], env);
      if o.Committed? {
        assert o.state.modified == st.modified;
        AttachmentPutsLeaveCollections(cmds[1..], o.state, env);
      }
    }
  }

  predicate DistinctStreams(streams: seq<StagedStream>) {
    forall i, j :: 0 <= i < j < |streams| ==> streams[i] != streams[j]
  }

  /** In a queue without repeats, no dequeued stream is still queued. */
  lemma DequeuedNotQueued(streams: seq<StagedStream>, n: nat)
    requires DistinctStreams(streams) && n <= |streams|
    ensures forall x :: x in streams[n..] ==> x !in streams[..n]
  {
    forall x | x in streams[n..]
      ensures x !in streams[..n]
    {
      var j :| 0 <= j < |streams[n..]| && streams[n..][j] == x;
      assert x == streams[n + j];
      assert forall i :: 0 <= i < n ==> streams[..n][i] == streams[i] && streams[i] != streams[n + j];
    }
  }

  /** Only consumed streams are released: the streams still queued when the
      batch commits, and those behind the failing command when it aborts,
      are never released (Dispose releases none of them). */
  lemma UnconsumedStreamsNotReleased(cmds: seq<Command>, store: Storage.Store, modified: Option<set<string>>,
                                     streams: seq<StagedStream>, env: Env)
    requires Storage.Valid(store) && DistinctStreams(streams)
    ensures match ExecuteCommands(cmds, Begin(store, modified, streams), env)
      case Committed(s) =>
        && s.released + s.streams == streams
        && forall x :: x in s.streams ==> x !in s.released
      case Aborted(_, released) =>
        && released == streams[..|released|]
        && forall x :: x in streams[|released|..] ==> x !in released
  {
    var r := ExecuteCommands(cmds, Begin(store, modified, streams), env);
    if r.Committed? {
      var n := AttachmentPuts(cmds);
      assert r.state.released == streams[..n] && r.state.streams == streams[n..] by {
        assert [] + streams[..n] == streams[..n];
      }
      assert streams[..n] + streams[n..] == streams;
      DequeuedNotQueued(streams, n);
    } else {
      assert r.released == [] + streams[..|r.released|];
      DequeuedNotQueued(streams, |r.released|);
    }
  }

  /** Execute's loop reads exactly the segment's commands when Offset is 0,
      so the as-written Execute and the corrected one agree there. */
  lemma OffsetZeroReadsTheSegment(seg: Segment, st: ExecState, env: Env)
    requires seg.offset == 0 && Storage.Valid(st.store)
    ensures AsWrittenCommands(seg) == SegmentCommands(seg)
    ensures ExecuteAsWritten(seg, st, env) == Execute(seg, st, env)
  {
    assert AsWrittenCommands(seg) == SegmentCommands(seg);
  }

  /** With Offset = 0 the as-written Execute replies once per command, in
      input order, so its return value equals the command count. */
  lemma ExecuteAtOffsetZeroRepliesPerCommand(seg: Segment, st: ExecState, env: Env)
    requires seg.offset == 0 && Storage.Valid(st.store)
    ensures ExecuteAsWritten(seg, st, env).Committed? ==>
      var s := ExecuteAsWritten(seg, st, env).state;
      && |s.reply| == seg.count
      && forall j :: 0 <= j < seg.count ==> Answers(seg.items[j], s.reply[j])
  {
    OffsetZeroReadsTheSegment(seg, st, env);
    var r := ExecuteAsWritten(seg, st, env);
    if r.Committed? {
      forall j | 0 <= j < seg.count
        ensures Answers(seg.items[j], r.state.reply[j])
      {
        assert AsWrittenCommands(seg)[j] == seg.items[j];
      }
    }
  }

  /** The double-counted offset: a segment holding positions 1 and 2 of a
      three-command array makes the loop visit position 2 only. */
  lemma OffsetCountedTwice(a: Command, b: Command, c: Command)
    ensures
      var seg: Segment := CommandSegment([a, b, c], 1, 2);
      && SegmentCommands(seg) == [b, c]
      && AsWrittenCommands(seg) == [c]
  {
    var seg: Segment := CommandSegment([a, b, c], 1, 2);
    assert SegmentCommands(seg) == [a, b, c][1..3];
  }

  /** Two PUTs of the same key in one batch: the second observes the first's
      etag, succeeds, and its etag becomes LastEtag. */
  lemma SecondPutObservesFirst(env: Env)
    ensures
      var cmds := [Put("users/1", None, "Users"), Put("users/1", Some(1), "Users")];
      var r := ExecuteCommands(cmds, Begin(Storage.EmptyStore, None, []), env);
      && r.Committed?
      && r.state.lastEtag == 2
      && "users/1" in r.state.store.docs
      && r.state.store.docs["users/1"] == Storage.Doc(2, "Users")
      && |r.state.reply| == 2
  {
    var st := Begin(Storage.EmptyStore, None, []);
    var c1 := Put("users/1", None, "Users");
    var c2 := Put("users/1", Some(1), "Users");
    FirstPutCreates(env);
    var o1 := Step(st, c1, env);
    PutWithMatchingEtag(o1.state, c2, env);
    assert ExecuteCommands([c1, c2], st, env) == ExecuteCommands([c2], o1.state, env) by {
      assert [c1, c2][1..] == [c2];
    }
    SingleCommand(c2, o1.state, env);
  }

  lemma FirstPutCreates(env: Env)
    ensures
      var o := Step(Begin(Storage.EmptyStore, None, []), Put("users/1", None, "Users"), env);
      && o.Committed?
      && Storage.Valid(o.state.store)
      && o.state.store.lastEtag == 1
      && Storage.DocEtag(o.state.store, "users/1") == Some(1)
      && |o.state.reply| == 1
  {
    var st := Begin(Storage.EmptyStore, None, []);
    assert Step(st, Put("users/1", None, "Users"), env) == ExecutePut(st, Put("users/1", None, "Users"), env);
  }

  lemma PutWithMatchingEtag(st: ExecState, c: Command, env: Env)
    requires Storage.Valid(st.store) && c.Put? && c.etag.Some?
    requires Storage.DocEtag(st.store, c.key) == Some(c.etag.value)
    ensures
      var o := Step(st, c, env);
      && o.Committed?
      && o.state.lastEtag == st.store.lastEtag + 1
      && c.key in o.state.store.docs
      && o.state.store.docs[c.key] == Storage.Doc(o.state.lastEtag, c.collection)
      && |o.state.reply| == |st.reply| + 1
  {
    assert Step(st, c, env) == ExecutePut(st, c, env);
  }

  lemma PutWithoutEtag(st: ExecState, c: Command, env: Env)
    requires Storage.Valid(st.store) && c.Put? && c.etag.None?
    ensures
      var o := Step(st, c, env);
      && o.Committed?
      && o.state.lastEtag == o.state.store.lastEtag == st.store.lastEtag + 1
      && o.state.modified == AddCollection(st.modified, c.collection)
  {
    assert Step(st, c, env) == ExecutePut(st, c, env);
  }

  /** A PUT with an expected etag against an empty store aborts the batch. */
  lemma PutWithStaleEtagAborts(env: Env)
    ensures ExecuteCommands([Put("users/1", Some(999), "Users")], Begin(Storage.EmptyStore, None, []), env)
         == Aborted(Conflict("users/1"), [])
  {
  }

  /** An AttachmentPUT with no staged stream fails fast. */
  lemma AttachmentPutWithoutStreamAborts(env: Env)
    ensures ExecuteCommands([AttachmentPut("users/1", None, "photo.png", "image/png")],
                            Begin(Storage.EmptyStore, None, []), env)
         == Aborted(NoStagedStream, [])
  {
  }

  /** An outcome with ModifiedCollections forgotten. */
  function WithoutCollections(o: ExecOutcome): ExecOutcome {
    if o.Committed? then Committed(o.state.(modified := None)) else o
  }

  /** One iteration does the same whether or not ModifiedCollections is
      allocated, and whatever it holds. */
  lemma StepIgnoresCollections(st: ExecState, c: Command, m: Option<set<string>>, env: Env)
    requires Storage.Valid(st.store)
    ensures WithoutCollections(Step(st.(modified := m), c, env)) == WithoutCollections(Step(st, c, env))
  {
    var st' := st.(modified := m);
    match c
    case Put(_, _, _) =>
      assert Step(st', c, env) == ExecutePut(st', c, env) && Step(st, c, env) == ExecutePut(st, c, env);
    case Patch(_, _, _, _) =>
      assert Step(st', c, env) == ExecutePatch(st', c, env) && Step(st, c, env) == ExecutePatch(st, c, env);
    case Delete(_, _, prefixed) =>
      if prefixed {
        assert Step(st', c, env) == ExecuteDeletePrefix(st', c) && Step(st, c, env) == ExecuteDeletePrefix(st, c);
      } else {
        assert Step(st', c, env) == ExecuteDelete(st', c) && Step(st, c, env) == ExecuteDelete(st, c);
      }
    case AttachmentPut(_, _, _, _) =>
      assert Step(st', c, env) == ExecuteAttachmentPut(st', c) && Step(st, c, env) == ExecuteAttachmentPut(st, c);
  }

  /** ModifiedCollections is bookkeeping only: allocating it (as the index
      wait asks) never changes what the batch writes, replies or releases,
      nor whether it commits. */
  lemma {:induction false} CollectionsNeverSteer(cmds: seq<Command>, st: ExecState, m: Option<set<string>>, env: Env)
    requires Storage.Valid(st.store)
    decreases |cmds|
    ensures WithoutCollections(ExecuteCommands(cmds, st.(modified := m), env))
         == WithoutCollections(ExecuteCommands(cmds, st, env))
  {
    if |cmds| > 0 {
      var o := Step(st, cmds[0], env);
      var o' := Step(st.(modified := m), cmds[0], env);
      StepIgnoresCollections(st, cmds[0], m, env);
      if o.Committed? {
        assert o'.state == o.state.(modified := o'.state.modified);
        CollectionsNeverSteer(cmds[1..], o.state, o'.state.modified, env);
      }
    }
  }
}

=== FILE: bulk_docs.dfy ===
/** The POST /databases/{name}/bulk_docs handler (BatchHandler.BulkDocs):
    reading the request, staging the attachment sections, running the merged
    command, and the optional waits for replicas and indexes that follow the
    commit. The HTTP plumbing, the command parser and the hashing of the
    attachment bodies are parameters of the model. */
module BulkDocs {
  import opened Wrappers
  import opened JsonValues
  import Storage
  import opened Batch
  import IndexWait
  import ReplicationWait

  type Bytes = seq<bv8>

  /** What BatchRequestParser hands back: an ArraySegment over the array it
      has just filled, so its Offset is 0. */
  type ParsedSegment = s: Segment | s.offset == 0 witness CommandSegment([], 0, 0)

  /** What the handler reads from the request: the Content-Type header
      (present means multipart/mixed), the body or its multipart sections,
      and the query-string parameters of the two waits. Timeouts are in
      ticks. */
  datatype Request = Request(
    contentType: Option<string>,
    body: Bytes,
    sections: seq<Bytes>,
    waitForIndexesTimeout: Option<int>,
    waitForIndexThrow: Option<bool>,
    waitForSpecificIndexes: seq<string>,
    waitForReplicasTimeout: Option<int>,
    numberOfReplicasToWaitFor: Option<string>,
    throwOnTimeoutInWaitForReplicas: Option<bool>)

  /** The database the handler runs against, reduced to what the handler asks
      of it: the batch parser, the attachment hasher, the collaborators of
      Execute, the replication loader (majority size and the number of
      replicas reached for (count, timeout, etag)), the index store and the
      staleness and timeout observations of the index wait, and a bound on
      the number of passes the model unrolls. */
  datatype Server = Server(
    parse: Bytes -> ParsedSegment,
    hash: Bytes -> string,
    env: Env,
    majority: int,
    replicated: (int, int, int) -> int,
    indexes: seq<IndexWait.Index>,
    stale: (IndexWait.Index, int, nat) -> bool,
    timedOut: (IndexWait.Index, int, nat) -> bool,
    fuel: nat)

  /** What the client gets back. */
  datatype Response =
    | Created(results: seq<Json>)                             // 201 and {"Results": Reply}
    | ConflictResponse(key: string)                           // 409, the ConcurrencyException rethrown
    | DequeueFailed                                           // Dequeue on an empty or missing queue
    | ReplicationFailed(error: ReplicationWait.ReplicationError)
    | IndexesTimedOut(lastEtag: int, indexCount: nat)         // the TimeoutException of the index wait
    | NoResponse                                              // the index wait has not finished

  function Min(a: int, b: int): int {
    if a <= b then a else b
  }

  /** The multipart loop: section 0 holds the commands; every later section
      (up to int.MaxValue sections) is copied to a temporary file, hashed and
      enqueued, in section order. */
  method StageSections(sections: seq<Bytes>, hash: Bytes -> string) returns (staged: seq<StagedStream>)
    ensures var n := Min(|sections|, Int32Max);
      |staged| == if n == 0 then 0 else n - 1
    ensures forall j :: 0 <= j < |staged| ==>
      staged[j] == StagedStream(j + 1, hash(sections[j + 1]), |sections[j + 1]|)
  {
    staged := [];
    var i := 0;
    while i < |sections| && i < Int32Max
      invariant 0 <= i <= |sections| && i <= Int32Max
      invariant |staged| == if i == 0 then 0 else i - 1
      invariant forall j :: 0 <= j < |staged| ==>
        staged[j] == StagedStream(j + 1, hash(sections[j + 1]), |sections[j + 1]|)
    {
      if i != 0 {
        staged := staged + [StagedStream(i, hash(sections[i]), |sections[i]|)];
      }
      i := i + 1;
    }
  }

  /** The handler's outcome: the response, the store after the request, and
      the staged streams that were released (disposed) by the commands. */
  datatype Handled = Handled(response: Response, store: Storage.Store, released: seq<StagedStream>)

  predicate Aborts(r: Response) {
    r.ConflictResponse? || r.DequeueFailed?
  }

  /** The replica wait, when waitForReplicasTimeout is given: the number
      of replicas reached, or the error it throws. */
  function Replicas(req: Request, srv: Server, st: ExecState): (r: Result<int, ReplicationWait.ReplicationError>)
    ensures req.waitForReplicasTimeout.None? ==> r.Success?
  {
    if req.waitForReplicasTimeout.None? then Success(0)
    else
      var timeout := req.waitForReplicasTimeout.value;
      ReplicationWait.WaitForReplication(req.numberOfReplicasToWaitFor, req.throwOnTimeoutInWaitForReplicas,
        srv.majority, st.lastEtag, (n: int, etag: int) => srv.replicated(n, timeout, etag))
  }

  /** The index wait, for the LastEtag and the collections the commands left. */
  function IndexOutcome(req: Request, srv: Server, st: ExecState): IndexWait.WaitResult
    requires req.waitForIndexesTimeout.Some? && st.modified.Some?
  {
    var timeout := req.waitForIndexesTimeout.value;
    IndexWait.WaitForIndexes(st.modified.value, srv.indexes, req.waitForSpecificIndexes,
      req.waitForIndexThrow, st.lastEtag, srv.stale,
      (x: IndexWait.Index, pass: nat) => srv.timedOut(x, timeout, pass), srv.fuel)
  }

  /** What follows a commit: the replica wait when waitForReplicasTimeout
      is given, then the index wait when waitForIndexesTimeout is given, both
      for the LastEtag the commands left, the index wait for the collections
      they modified; Created with the replies exactly when neither fails. */
  function AfterCommit(req: Request, srv: Server, st: ExecState): (r: Response)
    requires req.waitForIndexesTimeout.Some? ==> st.modified.Some?
    ensures !Aborts(r)
    ensures r.ReplicationFailed? <==> Replicas(req, srv, st).Failure?
    ensures r.ReplicationFailed? ==> r.error == Replicas(req, srv, st).error
    ensures r.Created? <==>
      && Replicas(req, srv, st).Success?
      && (req.waitForIndexesTimeout.None? || IndexOutcome(req, srv, st).Returned?)
    ensures r.Created? ==> r.results == st.reply
    ensures r.IndexesTimedOut? <==>
      && Replicas(req, srv, st).Success?
      && req.waitForIndexesTimeout.Some? && IndexOutcome(req, srv, st).TimedOut?
    ensures r.IndexesTimedOut? ==>
      && req.waitForIndexThrow != Some(false)
      && r == IndexesTimedOut(st.lastEtag, IndexOutcome(req, srv, st).indexCount)
    ensures r.NoResponse? <==>
      && Replicas(req, srv, st).Success?
      && req.waitForIndexesTimeout.Some? && IndexOutcome(req, srv, st).StillWaiting?
    ensures r.ReplicationFailed? && r.error.ReplicationTimeout? ==>
      && req.throwOnTimeoutInWaitForReplicas != Some(false)
      && r.error.etag == st.lastEtag
    ensures req.waitForIndexesTimeout.Some? && st.modified == Some({}) ==> !r.IndexesTimedOut? && !r.NoResponse?
  {
    var replicas := Replicas(req, srv, st);
    if replicas.Failure? then ReplicationFailed(replicas.error)
    else if req.waitForIndexesTimeout.None? then Created(st.reply)
    else
      match IndexOutcome(req, srv, st)
      case Returned(_) => Created(st.reply)
      case TimedOut(_, n) => IndexesTimedOut(st.lastEtag, n)
      case StillWaiting => NoResponse
  }

  /** ModifiedCollections: allocated only when waitForIndexesTimeout is given. */
  function Modified(req: Request): (r: Option<set<string>>)
    ensures r.Some? <==> req.waitForIndexesTimeout.Some?
    ensures r.Some? ==> r.value == {}
  {
    if req.waitForIndexesTimeout.Some? then Some({}) else None
  }

  /** The merged command: Execute over the parsed commands, with
      ModifiedCollections allocated as the request asks and the staged
      streams as its attachment queue. The parser's segments start at Offset
      0, where the loop as written and the corrected one coincide
      (BulkDocsProperties.RunIsTheLoopAsWritten). */
  function Run(req: Request, srv: Server, store: Storage.Store, seg: ParsedSegment, staged: seq<StagedStream>): (r: ExecOutcome)
    requires Storage.Valid(store)
    ensures r.Committed? ==>
      && (r.state.modified.Some? <==> req.waitForIndexesTimeout.Some?)
      && |r.state.reply| == seg.count
      && forall j :: 0 <= j < seg.count ==> Answers(seg.items[j], r.state.reply[j])
  {
    Execute(seg, Begin(store, Modified(req), staged), srv.env)
  }

  /** Everything after the multipart loop: the transaction commits or aborts
      as a whole; an aborted one answers with its error and leaves the store
      as it was, and only a committed one goes on to the waits. */
  function Handle(req: Request, srv: Server, store: Storage.Store, seg: ParsedSegment, staged: seq<StagedStream>): (h: Handled)
    requires Storage.Valid(store)
    ensures var r := Run(req, srv, store, seg, staged);
      && (Aborts(h.response) <==> r.Aborted?)
      && (r.Aborted? ==> h == Handled(if r.error.Conflict? then ConflictResponse(r.error.key) else DequeueFailed,
                                     store, r.released))
      && (r.Committed? ==> h == Handled(AfterCommit(req, srv, r.state), r.state.store, r.state.released))
    ensures !Aborts(h.response) ==> Storage.Valid(h.store) && h.store.lastEtag >= store.lastEtag
    ensures |h.released| <= |staged| && h.released == staged[..|h.released|]
  {
    var start := Begin(store, Modified(req), staged);
    var r := Run(req, srv, store, seg, staged);
    if r.Aborted? then
      assert r.released == [] + staged[..|r.released|];
      Handled(if r.error.Conflict? then ConflictResponse(r.error.key) else DequeueFailed, store, r.released)
    else
      CommitFacts(SegmentCommands(seg), start, r.state);
      Handled(AfterCommit(req, srv, r.state), r.state.store, r.state.released)
  }

  /** A Created response carries one reply per command of the batch, in
      order, each answering its command. */
  lemma CreatedAnswersEveryCommand(req: Request, srv: Server, store: Storage.Store, seg: ParsedSegment,
                                   staged: seq<StagedStream>)
    requires Storage.Valid(store)
    ensures var h := Handle(req, srv, store, seg, staged);
      h.response.Created? ==>
      && |h.response.results| == seg.count
      && forall j :: 0 <= j < seg.count ==> Answers(seg.items[j], h.response.results[j])
  {
    var r := Run(req, srv, store, seg, staged);
    var h := Handle(req, srv, store, seg, staged);
    if h.response.Created? {
      assert r.Committed? && h.response.results == r.state.reply;
    }
  }

  /** What the handler relies on from a committed batch that started with
      no released stream. */
  lemma CommitFacts(cmds: seq<Command>, start: ExecState, st: ExecState)
    requires start.released == [] && FoldCommitted(cmds, start.(reply := []), st)
    ensures Storage.Valid(st.store) && st.store.lastEtag >= start.store.lastEtag
    ensures |st.released| <= |start.streams| && st.released == start.streams[..|st.released|]
    ensures start.modified.Some? ==> st.modified.Some?
  {
    assert StreamsConsumed(start.(reply := []), st, AttachmentPuts(cmds));
  }

  /** The staged streams carry the section numbers 1 to n - 1, once each. */
  lemma StagedSectionNumbers(staged: seq<StagedStream>, n: int)
    requires |staged| == (if n <= 0 then 0 else n - 1)
    requires forall j :: 0 <= j < |staged| ==> staged[j].section == j + 1
    ensures var sections := set x | x in staged :: x.section;
      forall i: nat :: i in sections <==> 1 <= i < n
  {
    var sections := set x | x in staged :: x.section;
    forall i: nat
      ensures i in sections <==> 1 <= i < n
    {
      if 1 <= i < n {
        assert staged[i - 1] in staged;
      }
    }
  }

  /** BulkDocs: a multipart request takes its commands from section 0 and
      stages every later section (up to int.MaxValue sections) once, in
      section order; a plain request parses its whole body. Then the batch
      is handled. */
  method HandleBulkDocs(req: Request, srv: Server, store: Storage.Store)
    returns (response: Response, after: Storage.Store, commands: ParsedSegment,
             staged: seq<StagedStream>, released: seq<StagedStream>)
    requires Storage.Valid(store)
    ensures req.contentType.None? ==> commands == srv.parse(req.body) && staged == []
    ensures req.contentType.Some? && |req.sections| == 0 ==> commands.count == 0
    ensures req.contentType.Some? && |req.sections| > 0 ==> commands == srv.parse(req.sections[0])
    ensures req.contentType.Some? ==>
      var n := Min(|req.sections|, Int32Max);
      && |staged| == (if n == 0 then 0 else n - 1)
      && var sections := set x | x in staged :: x.section;
         forall i: nat :: i in sections <==> 1 <= i < n
    ensures req.contentType.Some? ==> forall j :: 0 <= j < |staged| ==>
      staged[j] == StagedStream(j + 1, srv.hash(req.sections[j + 1]), |req.sections[j + 1]|)
    ensures Handled(response, after, released) == Handle(req, srv, store, commands, staged)
  {
    if req.contentType.Some? {
      commands := if |req.sections| == 0 then EmptySegment else srv.parse(req.sections[0]);
      staged := StageSections(req.sections, srv.hash);
      StagedSectionNumbers(staged, Min(|req.sections|, Int32Max));
    } else {
      commands := srv.parse(req.body);
      staged := [];
    }
    var h := Handle(req, srv, store, commands, staged);
    response, after, released := h.response, h.store, h.released;
  }
}

=== FILE: bulk_docs_properties.dfy ===
/** How the handler wires the merged command to the two waits. */
module BulkDocsProperties {
  import opened Wrappers
  import opened JsonValues
  import Storage
  import opened Batch
  import opened IndexWait
  import ReplicationWait
  import opened BulkDocs
  import BatchProperties

  /** The handler runs MergedBatchCommand.Execute as written: on the
      segments the parser yields, its loop reads exactly the parsed commands. */
  lemma RunIsTheLoopAsWritten(req: Request, srv: Server, store: Storage.Store, seg: ParsedSegment,
                              staged: seq<StagedStream>)
    requires Storage.Valid(store)
    ensures Run(req, srv, store, seg, staged) == ExecuteAsWritten(seg, Begin(store, Modified(req), staged), srv.env)
  {
    BatchProperties.OffsetZeroReadsTheSegment(seg, Begin(store, Modified(req), staged), srv.env);
  }

  /** A request without either timeout never waits: it is answered from the
      transaction alone, Created with the replies when it commits. */
  lemma NoTimeoutsNoWaits(req: Request, srv: Server, store: Storage.Store, seg: ParsedSegment,
                          staged: seq<StagedStream>)
    requires Storage.Valid(store)
    requires req.waitForIndexesTimeout.None? && req.waitForReplicasTimeout.None?
    ensures var h := Handle(req, srv, store, seg, staged);
      match Execute(seg, Begin(store, None, staged), srv.env)
      case Committed(st) => h == Handled(Created(st.reply), st.store, st.released)
      case Aborted(e, released) => Aborts(h.response) && h.released == released
  {
  }

  /** The waits are asked for only after SaveChanges: a request with either
      timeout writes, replies and releases exactly what the same request
      without them does, aborts exactly when it does, and any Created it
      sends is the one the plain request sends. */
  lemma WaitsNeverChangeTheWrite(req: Request, srv: Server, store: Storage.Store, seg: ParsedSegment,
                                 staged: seq<StagedStream>)
    requires Storage.Valid(store)
    ensures var plain := req.(waitForIndexesTimeout := None, waitForReplicasTimeout := None);
      var h, p := Handle(req, srv, store, seg, staged), Handle(plain, srv, store, seg, staged);
      && (Aborts(h.response) <==> Aborts(p.response))
      && h.store == p.store && h.released == p.released
      && (Aborts(h.response) ==> h.response == p.response)
      && (h.response.Created? ==> h.response == p.response)
  {
    var plain := req.(waitForIndexesTimeout := None, waitForReplicasTimeout := None);
    var cmds := SegmentCommands(seg);
    var base := Begin(store, None, staged);
    assert Begin(store, Modified(req), staged).(reply := []) == base.(modified := Modified(req));
    assert Begin(store, Modified(plain), staged).(reply := []) == base;
    BatchProperties.CollectionsNeverSteer(cmds, base, Modified(req), srv.env);
  }

  /** The replica wait runs before the index wait: the response to a request
      with both is the response to the replica wait alone unless that is
      Created, and then the response to the index wait alone. */
  lemma ReplicasThenIndexes(req: Request, srv: Server, st: ExecState)
    requires req.waitForIndexesTimeout.Some? ==> st.modified.Some?
    ensures var replicasOnly := AfterCommit(req.(waitForIndexesTimeout := None), srv, st);
      var indexesOnly := AfterCommit(req.(waitForReplicasTimeout := None), srv, st);
      AfterCommit(req, srv, st) == if replicasOnly.Created? then indexesOnly else replicasOnly
  {
    var r1 := req.(waitForIndexesTimeout := None);
    var r2 := req.(waitForReplicasTimeout := None);
    assert Replicas(r1, srv, st) == Replicas(req, srv, st);
    assert Replicas(r2, srv, st) == Success(0);
    if req.waitForIndexesTimeout.Some? {
      assert IndexOutcome(r2, srv, st) == IndexOutcome(req, srv, st);
    }
  }

  const UsersPut := Put("users/1", None, "Users")

  const UsersBatch: ParsedSegment := CommandSegment([UsersPut], 0, 1)

  /** A single-body server whose parser yields one PUT into Users and whose
      only index, on `collections`, never catches up and always times out. */
  function StuckServer(env: Env, collections: set<string>, fuel: nat): Server {
    Server(
      (b: Bytes) => UsersBatch,
      (b: Bytes) => "",
      env,
      1,
      (n: int, timeout: int, etag: int) => n,
      [Index("Users/ByName", collections)],
      (x: Index, etag: int, pass: nat) => true,
      (x: Index, timeout: int, pass: nat) => true,
      fuel)
  }

  function WaitingRequest(throwParam: Option<bool>): Request {
    Request(None, [], [], Some(10_000_000), throwParam, [], None, None, None)
  }

  /** A PUT into Users without an expected etag, with ModifiedCollections
      allocated: it needs no etag, so it commits against any store. */
  lemma UsersPutStep(store: Storage.Store, c: Command, env: Env)
    requires Storage.Valid(store) && c.Put? && c.etag.None? && c.collection == "Users"
    ensures var r := Step(Begin(store, Some({}), []), c, env);
      && r.Committed?
      && r.state.lastEtag == r.state.store.lastEtag == store.lastEtag + 1
      && r.state.modified == Some({"Users"})
  {
    assert AddCollection(Some({}), c.collection) == Some({c.collection}) by {
      var empty: set<string> := {};
      assert empty + {c.collection} == {c.collection};
    }
    BatchProperties.PutWithoutEtag(Begin(store, Some({}), []), c, env);
  }

  lemma PutCommits(store: Storage.Store, env: Env)
    requires Storage.Valid(store)
    ensures var st := Begin(store, Some({}), []);
      Execute(UsersBatch, st, env) == Step(st, UsersPut, env)
  {
    var st := Begin(store, Some({}), []);
    assert SegmentCommands(UsersBatch) == [UsersPut];
    assert st.(reply := []) == st;
    BatchProperties.SingleCommand(UsersPut, st, env);
  }

  /** The single-PUT request commits, and the rest is AfterCommit. */
  lemma UsersBatchCommits(throwParam: Option<bool>, env: Env, collections: set<string>, fuel: nat, store: Storage.Store)
    requires Storage.Valid(store)
    ensures
      var st := Step(Begin(store, Some({}), []), UsersPut, env);
      var req := WaitingRequest(throwParam);
      var srv := StuckServer(env, collections, fuel);
      && st.Committed?
      && st.state.lastEtag == st.state.store.lastEtag == store.lastEtag + 1
      && st.state.modified == Some({"Users"})
      && Handle(req, srv, store, UsersBatch, [])
         == Handled(AfterCommit(req, srv, st.state), st.state.store, st.state.released)
  {
    var req := WaitingRequest(throwParam);
    var srv := StuckServer(env, collections, fuel);
    assert Modified(req) == Some({});
    PutCommits(store, env);
    UsersPutStep(store, UsersPut, env);
  }

  /** The collection the batch wrote reaches the index wait: an index on
      Users that stays stale makes the request fail with the index count
      and the batch's etag, once the commit has happened. */
  lemma WrittenCollectionIsAwaited(env: Env, fuel: nat, store: Storage.Store)
    requires Storage.Valid(store) && fuel > 0
    ensures
      var h := Handle(WaitingRequest(None), StuckServer(env, {"Users"}, fuel), store, UsersBatch, []);
      && h.response == IndexesTimedOut(store.lastEtag + 1, 1)
      && h.store.lastEtag == store.lastEtag + 1
  {
    UsersBatchCommits(None, env, {"Users"}, fuel, store);
    var st := Step(Begin(store, Some({}), []), UsersPut, env).state;
    UsersIndexTimesOut(env, fuel, st);
  }

  lemma UsersIndexTimesOut(env: Env, fuel: nat, st: ExecState)
    requires fuel > 0 && st.modified == Some({"Users"})
    ensures AfterCommit(WaitingRequest(None), StuckServer(env, {"Users"}, fuel), st) == IndexesTimedOut(st.lastEtag, 1)
  {
    var srv := StuckServer(env, {"Users"}, fuel);
    var timedOut := (x: Index, pass: nat) => srv.timedOut(x, 10_000_000, pass);
    var ix := Index("Users/ByName", {"Users"});
    assert Impacted(ix, {"Users"});
    assert SelectIndexes(srv.indexes, [], {"Users"}) == [ix];
    FirstPassTimeoutThrows({"Users"}, srv.indexes, [], None, st.lastEtag, srv.stale, timedOut, ix, fuel);
  }

  /** An index on a collection the batch did not touch is not awaited. */
  lemma UntouchedCollectionIsNotAwaited(env: Env, fuel: nat, store: Storage.Store)
    requires Storage.Valid(store)
    ensures
      var h := Handle(WaitingRequest(None), StuckServer(env, {"Orders"}, fuel), store, UsersBatch, []);
      h.response.Created? && |h.response.results| == 1
  {
    UsersBatchCommits(None, env, {"Orders"}, fuel, store);
    var st := Step(Begin(store, Some({}), []), UsersPut, env).state;
    OrdersIndexIgnored(env, fuel, st);
  }

  lemma OrdersIndexIgnored(env: Env, fuel: nat, st: ExecState)
    requires st.modified == Some({"Users"})
    ensures AfterCommit(WaitingRequest(None), StuckServer(env, {"Orders"}, fuel), st) == Created(st.reply)
  {
    var srv := StuckServer(env, {"Orders"}, fuel);
    var ix := Index("Users/ByName", {"Orders"});
    assert !Impacted(ix, {"Users"});
    assert SelectIndexes(srv.indexes, [], {"Users"}) == [];
  }

  /** With waitForIndexThrow=false a stuck index keeps the request waiting
      instead of failing it. */
  lemma NoThrowKeepsWaiting(env: Env, fuel: nat, store: Storage.Store)
    requires Storage.Valid(store)
    ensures
      Handle(WaitingRequest(Some(false)), StuckServer(env, {"Users"}, fuel), store, UsersBatch, []).response
        == NoResponse
  {
    UsersBatchCommits(Some(false), env, {"Users"}, fuel, store);
    var st := Step(Begin(store, Some({}), []), UsersPut, env).state;
    UsersIndexSpins(env, fuel, st);
  }

  lemma UsersIndexSpins(env: Env, fuel: nat, st: ExecState)
    requires st.modified == Some({"Users"})
    ensures AfterCommit(WaitingRequest(Some(false)), StuckServer(env, {"Users"}, fuel), st) == NoResponse
  {
    var srv := StuckServer(env, {"Users"}, fuel);
    var ix := Index("Users/ByName", {"Users"});
    assert Impacted(ix, {"Users"});
    assert SelectIndexes(srv.indexes, [], {"Users"}) == [ix];
    var timedOut := (x: Index, pass: nat) => srv.timedOut(x, 10_000_000, pass);
    StuckIndexSpinsWithoutThrow({"Users"}, srv.indexes, [], st.lastEtag, srv.stale, timedOut, ix, fuel);
  }
}

=== FILE: index_query.dfy ===
/** IndexQuery, IndexQuery<T> and IndexQueryBase<T> as one immutable record:
    the page-size setter, value equality and GetHashCode at the three class
    levels, the object-level Equals, and the field order of GetQueryHash.
    FEATURE_SHOW_TIMINGS is off, so ShowTimings does not exist. */
module IndexQueries {
  import opened Wrappers

  type Int32 = x: int | Int32Min <= x <= Int32Max
  type Int64 = x: int | -0x8000_0000_0000_0000 <= x <= 0x7FFF_FFFF_FFFF_FFFF

  /** The query parameters (a Parameters dictionary); compared by nobody. */
  type Parameters = map<string, string>

  /** One query object. `pageSize` is the `_pageSize` field behind the
      PageSize property; `waitTimeout` is WaitForNonStaleResultsTimeout in
      ticks; a `None` stands for a null reference or an empty nullable. */
  datatype IndexQuery = IndexQuery(
    pageSize: Int32,
    pageSizeSet: bool,
    query: Option<string>,
    queryParameters: Option<Parameters>,
    start: Int32,
    waitForNonStaleResults: bool,
    waitTimeout: Option<Int64>,
    cutoffEtag: Option<Int64>,
    skipDuplicateChecking: bool,
    explainScores: bool,
    disableCaching: bool)

  /** A page size that was never set is still the default int.MaxValue. */
  predicate PageSizeConsistent(q: IndexQuery) {
    !q.pageSizeSet ==> q.pageSize == Int32Max
  }

  /** `new IndexQuery()`: every property at its default. */
  function NewIndexQuery(): (q: IndexQuery)
    ensures q.pageSize == Int32Max && !q.pageSizeSet
    ensures q.query.None? && q.queryParameters.None? && q.start == 0
    ensures PageSizeConsistent(q)
  {
    IndexQuery(Int32Max, false, None, None, 0, false, None, None, false, false, false)
  }

  /** The PageSize setter: stores the value and marks it as set, whatever
      the value; nothing else changes. */
  function SetPageSize(q: IndexQuery, value: Int32): (r: IndexQuery)
    ensures r.pageSize == value && r.pageSizeSet
    ensures r.(pageSize := q.pageSize, pageSizeSet := q.pageSizeSet) == q
    ensures PageSizeConsistent(r)
  {
    q.(pageSize := value, pageSizeSet := true)
  }

  // ---------------------------------------------------------------------
  // Equality at the three class levels. `other` is None for a null argument.
  // ---------------------------------------------------------------------

  /** IndexQueryBase<T>.Equals: PageSizeSet, PageSize, Query, Start,
      WaitForNonStaleResultsTimeout, WaitForNonStaleResults and CutoffEtag
      must agree; nothing else is looked at. */
  function BaseEquals(self: IndexQuery, other: Option<IndexQuery>): (r: bool)
    ensures other.None? ==> !r
    ensures other.Some? ==>
      (r <==> self.(queryParameters := other.value.queryParameters,
                    skipDuplicateChecking := other.value.skipDuplicateChecking,
                    explainScores := other.value.explainScores,
                    disableCaching := other.value.disableCaching) == other.value)
  {
    match other
    case None => false
    case Some(o) =>
      && self.pageSizeSet == o.pageSizeSet
      && self.pageSize == o.pageSize
      && self.query == o.query
      && self.start == o.start
      && self.waitTimeout == o.waitTimeout
      && self.waitForNonStaleResults == o.waitForNonStaleResults
      && self.cutoffEtag == o.cutoffEtag
  }

  /** IndexQuery<T>.Equals: the base fields and SkipDuplicateChecking;
      ExplainScores is not compared. */
  function GenericEquals(self: IndexQuery, other: Option<IndexQuery>): (r: bool)
    ensures other.None? ==> !r
    ensures other.Some? ==>
      (r <==> self.(queryParameters := other.value.queryParameters,
                    explainScores := other.value.explainScores,
                    disableCaching := other.value.disableCaching) == other.value)
  {
    BaseEquals(self, other) && self.skipDuplicateChecking == other.value.skipDuplicateChecking
  }

  /** IndexQuery.Equals: the generic fields and DisableCaching. */
  function QueryEquals(self: IndexQuery, other: Option<IndexQuery>): (r: bool)
    ensures other.None? ==> !r
    ensures other.Some? ==>
      (r <==> self.(queryParameters := other.value.queryParameters,
                    explainScores := other.value.explainScores) == other.value)
  {
    GenericEquals(self, other) && self.disableCaching == other.value.disableCaching
  }

  // ---------------------------------------------------------------------
  // GetHashCode: 32-bit wrapping `(h * 397) ^ x` over the same levels.
  // ---------------------------------------------------------------------

  const TwoTo32: int := 0x1_0000_0000

  /** `bool.GetHashCode()`. */
  function BoolHash(b: bool): bv32 {
    if b then 1 else 0
  }

  /** An int's own bits: `int.GetHashCode()` and the `^ Start` operand. */
  function Int32Bits(v: Int32): bv32 {
    (v % TwoTo32) as bv32
  }

  /** `long.GetHashCode()` and `TimeSpan.GetHashCode()`: the low 32 bits of
      the two's-complement value xor-ed with the high 32 bits. */
  function Int64Hash(v: Int64): bv32 {
    var u := v % (TwoTo32 * TwoTo32);
    ((u % TwoTo32) as bv32) ^ ((u / TwoTo32) as bv32)
  }

  /** A nullable long's hash: 0 for null. */
  function NullableHash(v: Option<Int64>): bv32 {
    if v.Some? then Int64Hash(v.value) else 0
  }

  function Mix(h: bv32, x: bv32): bv32 {
    (h * 397) ^ x
  }

  /** IndexQueryBase<T>.GetHashCode; `strHash` is `string.GetHashCode()`. */
  function BaseHashCode(q: IndexQuery, strHash: string -> bv32): bv32 {
    var h := BoolHash(q.pageSizeSet);
    var h := Mix(h, Int32Bits(q.pageSize));
    var h := Mix(h, if q.query.Some? then strHash(q.query.value) else 0);
    var h := Mix(h, Int32Bits(q.start));
    var h := Mix(h, NullableHash(q.waitTimeout));
    Mix(h, NullableHash(q.cutoffEtag))
  }

  /** IndexQuery<T>.GetHashCode. */
  function GenericHashCode(q: IndexQuery, strHash: string -> bv32): bv32 {
    Mix(BaseHashCode(q, strHash), BoolHash(q.skipDuplicateChecking))
  }

  /** IndexQuery.GetHashCode. */
  function QueryHashCode(q: IndexQuery, strHash: string -> bv32): bv32 {
    Mix(GenericHashCode(q, strHash), BoolHash(q.disableCaching))
  }

  // ---------------------------------------------------------------------
  // GetQueryHash: the values written to the query hasher, in order.
  // ---------------------------------------------------------------------

  /** One `hasher.Write` call, by the overload it selects. */
  datatype HashInput =
    | WriteString(s: Option<string>)
    | WriteBool(b: bool)
    | WriteLong(l: Option<Int64>)
    | WriteInt(i: Int32)
    | WriteParameters(p: Option<Parameters>)

  /** The nine values GetQueryHash writes. */
  function QueryHashInputs(q: IndexQuery): (r: seq<HashInput>)
    ensures |r| == 9
  {
    [ WriteString(q.query),
      WriteBool(q.waitForNonStaleResults),
      WriteBool(q.skipDuplicateChecking),
      WriteBool(q.explainScores),
      WriteLong(q.waitTimeout),
      WriteLong(q.cutoffEtag),
      WriteInt(q.start),
      WriteInt(q.pageSize),
      WriteParameters(q.queryParameters) ]
  }

  /** `GetQueryHash`: the hasher's digest of the written values. */
  function GetQueryHash(q: IndexQuery, hasher: seq<HashInput> -> bv64): bv64 {
    hasher(QueryHashInputs(q))
  }

  /** The fields GetQueryHash covers. */
  datatype HashedFields = HashedFields(
    query: Option<string>,
    waitForNonStaleResults: bool,
    skipDuplicateChecking: bool,
    explainScores: bool,
    waitTimeout: Option<Int64>,
    cutoffEtag: Option<Int64>,
    start: Int32,
    pageSize: Int32,
    queryParameters: Option<Parameters>)

  function HashedFieldsOf(q: IndexQuery): HashedFields {
    HashedFields(q.query, q.waitForNonStaleResults, q.skipDuplicateChecking, q.explainScores,
                 q.waitTimeout, q.cutoffEtag, q.start, q.pageSize, q.queryParameters)
  }

  /** Reads a written stream back, checking each call's overload and position. */
  function DecodeHashInputs(w: seq<HashInput>): (r: Option<HashedFields>)
    ensures r.Some? ==> |w| == 9
  {
    if |w| != 9 then None
    else if && w[0].WriteString? && w[1].WriteBool? && w[2].WriteBool? && w[3].WriteBool?
            && w[4].WriteLong? && w[5].WriteLong? && w[6].WriteInt? && w[7].WriteInt?
            && w[8].WriteParameters?
    then Some(HashedFields(w[0].s, w[1].b, w[2].b, w[3].b, w[4].l, w[5].l, w[6].i, w[7].i, w[8].p))
    else None
  }

  // ---------------------------------------------------------------------
  // Object identity and Equals(object).
  // ---------------------------------------------------------------------

  /** A reference to a query object: `id` is its identity. */
  datatype Ref = Ref(id: nat, query: IndexQuery)

  /** IndexQuery<T>.Equals(object) as written: after the null and identity
      checks and the type test, `Equals((IndexQuery)obj)` binds to
      Equals(object) itself, because inside the generic class IndexQuery does
      not convert to IndexQuery<T>. `fuel` bounds the nested calls; None
      means no answer within them. */
  function EqualsObjectAsWritten(self: Ref, obj: Option<Ref>, fuel: nat): (r: Option<bool>)
    decreases fuel
    ensures obj.None? ==> r == Some(false)
    ensures obj.Some? && obj.value.id == self.id ==> r == Some(true)
  {
    if obj.None? then Some(false)
    else if obj.value.id == self.id then Some(true)
    else if fuel == 0 then None
    else EqualsObjectAsWritten(self, obj, fuel - 1)
  }

  /** Equals(object) as evidently intended: the typed IndexQuery.Equals. */
  function EqualsObject(self: Ref, obj: Option<Ref>): (r: bool)
    ensures obj.None? ==> !r
    ensures obj.Some? && obj.value.id != self.id ==>
      (r <==> self.query.(queryParameters := obj.value.query.queryParameters,
                          explainScores := obj.value.query.explainScores) == obj.value.query)
  {
    if obj.None? then false
    else if obj.value.id == self.id then true
    else QueryEquals(self.query, Some(obj.value.query))
  }
}

=== FILE: index_query_properties.dfy ===
/** What the three equality levels, the hash codes and the query hash
    promise about each other. */
module IndexQueryProperties {
  import opened Wrappers
  import opened IndexQueries

  /** Equality is reflexive at every level. */
  lemma EqualsReflexive(q: IndexQuery)
    ensures BaseEquals(q, Some(q)) && GenericEquals(q, Some(q)) && QueryEquals(q, Some(q))
  {
  }

  /** Equality is symmetric at every level. */
  lemma EqualsSymmetric(a: IndexQuery, b: IndexQuery)
    ensures BaseEquals(a, Some(b)) == BaseEquals(b, Some(a))
    ensures GenericEquals(a, Some(b)) == GenericEquals(b, Some(a))
    ensures QueryEquals(a, Some(b)) == QueryEquals(b, Some(a))
  {
  }

  /** Equality is transitive at every level. */
  lemma EqualsTransitive(a: IndexQuery, b: IndexQuery, c: IndexQuery)
    ensures BaseEquals(a, Some(b)) && BaseEquals(b, Some(c)) ==> BaseEquals(a, Some(c))
    ensures GenericEquals(a, Some(b)) && GenericEquals(b, Some(c)) ==> GenericEquals(a, Some(c))
    ensures QueryEquals(a, Some(b)) && QueryEquals(b, Some(c)) ==> QueryEquals(a, Some(c))
  {
  }

  /** Each level strengthens the one below it. */
  lemma LevelsRefine(a: IndexQuery, other: Option<IndexQuery>)
    ensures QueryEquals(a, other) ==> GenericEquals(a, other)
    ensures GenericEquals(a, other) ==> BaseEquals(a, other)
  {
  }

  /** IndexQueryBase: Equals implies equal GetHashCode. */
  lemma BaseEqualsHashEqually(a: IndexQuery, b: IndexQuery, strHash: string -> bv32)
    ensures BaseEquals(a, Some(b)) ==> BaseHashCode(a, strHash) == BaseHashCode(b, strHash)
  {
  }

  /** IndexQuery<T>: Equals implies equal GetHashCode. */
  lemma GenericEqualsHashEqually(a: IndexQuery, b: IndexQuery, strHash: string -> bv32)
    ensures GenericEquals(a, Some(b)) ==> GenericHashCode(a, strHash) == GenericHashCode(b, strHash)
  {
  }

  /** IndexQuery: Equals implies equal GetHashCode. */
  lemma QueryEqualsHashEqually(a: IndexQuery, b: IndexQuery, strHash: string -> bv32)
    ensures QueryEquals(a, Some(b)) ==> QueryHashCode(a, strHash) == QueryHashCode(b, strHash)
  {
  }

  /** GetQueryHash reads exactly the hashed fields: queries that agree on
      them hash alike under every hasher, and queries that differ on one of
      them feed the hasher different inputs, so only a collision of the
      hasher itself can make their hashes equal. */
  lemma HashedFieldsDecideQueryHash(a: IndexQuery, b: IndexQuery, hasher: seq<HashInput> -> bv64)
    ensures HashedFieldsOf(a) == HashedFieldsOf(b) ==> GetQueryHash(a, hasher) == GetQueryHash(b, hasher)
    ensures HashedFieldsOf(a) != HashedFieldsOf(b) ==> QueryHashInputs(a) != QueryHashInputs(b)
  {
    QueryHashInputsFaithful(a, b);
  }

  /** WaitForNonStaleResults is compared but not hashed: flipping it keeps
      every hash code and breaks equality. */
  lemma WaitForNonStaleResultsNotHashed(q: IndexQuery, strHash: string -> bv32)
    ensures var f := q.(waitForNonStaleResults := !q.waitForNonStaleResults);
      && BaseHashCode(f, strHash) == BaseHashCode(q, strHash)
      && QueryHashCode(f, strHash) == QueryHashCode(q, strHash)
      && !BaseEquals(f, Some(q))
  {
  }

  /** ExplainScores and QueryParameters are neither compared nor hashed. */
  lemma ExplainScoresAndParametersIgnored(q: IndexQuery, explain: bool, params: Option<Parameters>,
                                          strHash: string -> bv32)
    ensures var f := q.(explainScores := explain, queryParameters := params);
      && QueryEquals(f, Some(q))
      && QueryHashCode(f, strHash) == QueryHashCode(q, strHash)
  {
  }

  /** Setting PageSize to its default value still makes the query differ
      from a fresh one, because PageSizeSet is compared. */
  lemma ExplicitDefaultPageSizeDiffers()
    ensures SetPageSize(NewIndexQuery(), Int32Max).pageSize == NewIndexQuery().pageSize
    ensures !BaseEquals(SetPageSize(NewIndexQuery(), Int32Max), Some(NewIndexQuery()))
    ensures !QueryEquals(SetPageSize(NewIndexQuery(), Int32Max), Some(NewIndexQuery()))
  {
  }

  /** Setting PageSize twice keeps only the second value. */
  lemma SetPageSizeTwice(q: IndexQuery, a: Int32, b: Int32)
    ensures SetPageSize(SetPageSize(q, a), b) == SetPageSize(q, b)
  {
  }

  /** The written stream determines exactly the nine hashed fields. */
  lemma QueryHashInputsRoundTrip(q: IndexQuery)
    ensures DecodeHashInputs(QueryHashInputs(q)) == Some(HashedFieldsOf(q))
  {
  }

  /** Two queries write the same stream iff they agree on the nine fields. */
  lemma QueryHashInputsFaithful(a: IndexQuery, b: IndexQuery)
    ensures QueryHashInputs(a) == QueryHashInputs(b) <==> HashedFieldsOf(a) == HashedFieldsOf(b)
  {
    if QueryHashInputs(a) == QueryHashInputs(b) {
      QueryHashInputsRoundTrip(a);
      QueryHashInputsRoundTrip(b);
    }
  }

  /** DisableCaching and PageSizeSet do not reach the query hash, although
      both take part in equality. */
  lemma QueryHashExcludes(q: IndexQuery, caching: bool, sizeSet: bool, hasher: seq<HashInput> -> bv64)
    ensures GetQueryHash(q.(disableCaching := caching, pageSizeSet := sizeSet), hasher) == GetQueryHash(q, hasher)
  {
  }

  /** ExplainScores and QueryParameters, which equality ignores, do reach
      the query hash. */
  lemma QueryHashSeesWhatEqualityIgnores(q: IndexQuery, explain: bool, params: Option<Parameters>)
    requires explain != q.explainScores || params != q.queryParameters
    ensures QueryHashInputs(q.(explainScores := explain, queryParameters := params)) != QueryHashInputs(q)
  {
    var f := q.(explainScores := explain, queryParameters := params);
    QueryHashInputsFaithful(f, q);
  }

  /** The object-level Equals as written never answers for two distinct
      objects: each call makes the same call again. */
  lemma {:induction false} EqualsObjectRecurses(self: Ref, other: Ref, fuel: nat)
    requires other.id != self.id
    ensures EqualsObjectAsWritten(self, Some(other), fuel) == None
  {
    if fuel > 0 {
      EqualsObjectRecurses(self, other, fuel - 1);
    }
  }

  /** Where the as-written Equals(object) answers, it agrees with the
      intended one. */
  lemma EqualsObjectAgreesWhenItAnswers(self: Ref, obj: Option<Ref>, fuel: nat)
    ensures EqualsObjectAsWritten(self, obj, fuel).Some? ==>
      EqualsObjectAsWritten(self, obj, fuel).value == EqualsObject(self, obj)
  {
    if obj.Some? && obj.value.id != self.id {
      EqualsObjectRecurses(self, obj.value, fuel);
    }
  }

  /** The intended Equals(object) is the typed equality on the referenced
      queries, given that one identity names one object. */
  lemma EqualsObjectIsQueryEquals(self: Ref, obj: Option<Ref>)
    requires obj.Some? && obj.value.id == self.id ==> obj.value.query == self.query
    ensures EqualsObject(self, obj) == QueryEquals(self.query, if obj.Some? then Some(obj.value.query) else None)
  {
  }
}

=== FILE: index_wait.dfy ===
/** The post-commit wait for indexes (WaitForIndexesAsync and
    GetImpactedIndexesToWaitForToBecomeNonStale). Staleness and the timeout
    are oracles indexed by the pass number, which stands for time; the
    unbounded `while (true)` is bounded by fuel. */
module IndexWait {
  import opened Wrappers

  /** An index as the wait sees it: its name and its declared collections
      (an empty set means the index covers every collection). */
  datatype Index = Index(name: string, collections: set<string>)

  /** The index may have to see the batch: it covers every collection, or
      one of the collections the batch modified. */
  predicate Impacted(index: Index, modified: set<string>) {
    |index.collections| == 0 || index.collections * modified != {}
  }

  /** The elements of `xs` that satisfy `keep`, in order. */
  function FilterIndexes(xs: seq<Index>, keep: Index -> bool): (r: seq<Index>)
    ensures forall x :: x in r <==> x in xs && keep(x)
    ensures |r| <= |xs|
    ensures (forall i :: 0 <= i < |xs| ==> keep(xs[i])) ==> r == xs
  {
    if |xs| == 0 then []
    else
      var rest := FilterIndexes(xs[1..], keep);
      assert forall x :: x in xs <==> x == xs[0] || x in xs[1..];
      if keep(xs[0]) then [xs[0]] + rest else rest
  }

  /** GetImpactedIndexesToWaitForToBecomeNonStale: the impacted indexes, in
      the store's order, restricted to the requested names when any were given. */
  function SelectIndexes(indexes: seq<Index>, specific: seq<string>, modified: set<string>): (r: seq<Index>)
    ensures forall x :: x in r <==>
      x in indexes && Impacted(x, modified) && (|specific| > 0 ==> x.name in specific)
    ensures |r| <= |indexes|
  {
    if |specific| > 0 then FilterIndexes(indexes, (x: Index) => x.name in specific && Impacted(x, modified))
    else FilterIndexes(indexes, (x: Index) => Impacted(x, modified))
  }

  /** One wait request: the indexes to wait for, the etag they must reach,
      whether a timeout throws, and the two oracles. `stale(x, etag, p)` is
      `x.IsStale(etag)` during pass `p`; `timedOut(x, p)` is TimeoutExceeded
      after waiting for `x` during pass `p`. */
  datatype Waiter = Waiter(
    items: seq<Index>,
    lastEtag: int,
    throwOnTimeout: bool,
    stale: (Index, int, nat) -> bool,
    timedOut: (Index, nat) -> bool)

  /** Pass `p` finds no stale index. */
  predicate Fresh(w: Waiter, p: nat) {
    forall i :: 0 <= i < |w.items| ==> !w.stale(w.items[i], w.lastEtag, p)
  }

  /** Pass `p` throws: some index is still stale after its wait timed out,
      and the caller asked for a throw. */
  predicate Expired(w: Waiter, p: nat) {
    w.throwOnTimeout && exists i :: 0 <= i < |w.items| && w.stale(w.items[i], w.lastEtag, p) && w.timedOut(w.items[i], p)
  }

  /** Some awaited index is stale during pass `p`. */
  predicate StaleDuring(items: seq<Index>, lastEtag: int, stale: (Index, int, nat) -> bool, p: nat) {
    exists x :: x in items && stale(x, lastEtag, p)
  }

  /** Some awaited index is still stale during pass `p` after its wait
      timed out. */
  predicate ExpiredDuring(items: seq<Index>, lastEtag: int, stale: (Index, int, nat) -> bool,
                          timedOut: (Index, nat) -> bool, p: nat) {
    exists x :: x in items && stale(x, lastEtag, p) && timedOut(x, p)
  }

  /** Fresh and Expired, which walk the positions of the awaited list, say
      the same as the membership predicates above. */
  lemma PassInTermsOfMembers(w: Waiter, p: nat)
    ensures Fresh(w, p) <==> !StaleDuring(w.items, w.lastEtag, w.stale, p)
    ensures Expired(w, p) <==> w.throwOnTimeout && ExpiredDuring(w.items, w.lastEtag, w.stale, w.timedOut, p)
  {
    if StaleDuring(w.items, w.lastEtag, w.stale, p) {
      var x :| x in w.items && w.stale(x, w.lastEtag, p);
      var i :| 0 <= i < |w.items| && w.items[i] == x;
    }
    if ExpiredDuring(w.items, w.lastEtag, w.stale, w.timedOut, p) {
      var x :| x in w.items && w.stale(x, w.lastEtag, p) && w.timedOut(x, p);
      var i :| 0 <= i < |w.items| && w.items[i] == x;
    }
    if Expired(w, p) {
      var i :| 0 <= i < |w.items| && w.stale(w.items[i], w.lastEtag, p) && w.timedOut(w.items[i], p);
      assert w.items[i] in w.items;
    }
    if !Fresh(w, p) {
      var i :| 0 <= i < |w.items| && w.stale(w.items[i], w.lastEtag, p);
      assert w.items[i] in w.items;
    }
  }

  datatype PassResult = AllFresh | SomeStale | Threw

  /** The `foreach` over the items during pass `p`, from position `from` on. */
  function RunPass(w: Waiter, p: nat, from: nat): (r: PassResult)
    requires from <= |w.items|
    decreases |w.items| - from
    ensures r == AllFresh <==> forall i :: from <= i < |w.items| ==> !w.stale(w.items[i], w.lastEtag, p)
    ensures r == Threw <==>
      w.throwOnTimeout && exists i :: from <= i < |w.items| && w.stale(w.items[i], w.lastEtag, p) && w.timedOut(w.items[i], p)
  {
    if from == |w.items| then AllFresh
    else
      var x := w.items[from];
      if w.stale(x, w.lastEtag, p) && w.timedOut(x, p) && w.throwOnTimeout then Threw
      else
        var rest := RunPass(w, p, from + 1);
        if rest == Threw then Threw
        else if w.stale(x, w.lastEtag, p) then SomeStale
        else rest
  }

  /** How a wait ends: it returned after `passes` passes, it threw the
      TimeoutException (naming the index count) during pass `passes - 1`, or
      it was still looping when the fuel ran out. */
  datatype WaitResult = Returned(passes: nat) | TimedOut(passes: nat, indexCount: nat) | StillWaiting

  /** The `while (true)` loop from pass `p` with `fuel` passes left. */
  function WaitLoop(w: Waiter, p: nat, fuel: nat): (r: WaitResult)
    decreases fuel
    ensures r.Returned? ==>
      && p < r.passes <= p + fuel
      && Fresh(w, r.passes - 1)
      && forall q :: p <= q < r.passes - 1 ==> !Fresh(w, q) && !Expired(w, q)
    ensures r.TimedOut? ==>
      && w.throwOnTimeout
      && p < r.passes <= p + fuel
      && Expired(w, r.passes - 1)
      && r.indexCount == |w.items|
      && forall q :: p <= q < r.passes - 1 ==> !Fresh(w, q) && !Expired(w, q)
    ensures r.StillWaiting? ==> forall q :: p <= q < p + fuel ==> !Fresh(w, q) && !Expired(w, q)
  {
    if fuel == 0 then StillWaiting
    else
      match RunPass(w, p, 0)
      case AllFresh => Returned(p + 1)
      case Threw => TimedOut(p + 1, |w.items|)
      case SomeStale => WaitLoop(w, p + 1, fuel - 1)
  }

  /** WaitLoop's contract from pass 0, restated with the membership
      predicates for the awaited `items`. */
  lemma LoopInTermsOfMembers(items: seq<Index>, lastEtag: int, throwOnTimeout: bool,
                             stale: (Index, int, nat) -> bool, timedOut: (Index, nat) -> bool, fuel: nat)
    ensures var r := WaitLoop(Waiter(items, lastEtag, throwOnTimeout, stale, timedOut), 0, fuel);
      && r != Returned(0)
      && (r.Returned? ==>
           && r.passes <= fuel
           && (forall x :: x in items ==> !stale(x, lastEtag, r.passes - 1))
           && forall q: nat :: q < r.passes - 1 ==>
                && StaleDuring(items, lastEtag, stale, q)
                && (throwOnTimeout ==> !ExpiredDuring(items, lastEtag, stale, timedOut, q)))
      && (r.TimedOut? ==>
           && throwOnTimeout
           && r.indexCount == |items|
           && 0 < r.passes <= fuel
           && ExpiredDuring(items, lastEtag, stale, timedOut, r.passes - 1)
           && forall q: nat :: q < r.passes - 1 ==>
                && StaleDuring(items, lastEtag, stale, q)
                && !ExpiredDuring(items, lastEtag, stale, timedOut, q))
      && (r.StillWaiting? ==>
           forall q: nat :: q < fuel ==>
             && StaleDuring(items, lastEtag, stale, q)
             && (throwOnTimeout ==> !ExpiredDuring(items, lastEtag, stale, timedOut, q)))
  {
    var w := Waiter(items, lastEtag, throwOnTimeout, stale, timedOut);
    var r := WaitLoop(w, 0, fuel);
    forall q: nat | q < fuel {
      PassInTermsOfMembers(w, q);
    }
    if r.Returned? {
      forall x | x in items
        ensures !stale(x, lastEtag, r.passes - 1)
      {
        var i :| 0 <= i < |items| && items[i] == x;
      }
    }
  }

  /** WaitForIndexesAsync. `throwParam` is the waitForIndexThrow query
      value (absent means true). */
  function WaitForIndexes(modified: set<string>, indexes: seq<Index>, specific: seq<string>,
                          throwParam: Option<bool>, lastEtag: int,
                          stale: (Index, int, nat) -> bool, timedOut: (Index, nat) -> bool,
                          fuel: nat): (r: WaitResult)
    ensures |modified| == 0 ==> r == Returned(0)
    ensures |SelectIndexes(indexes, specific, modified)| == 0 ==> r == Returned(0)
    ensures r == Returned(0) ==> |modified| == 0 || |SelectIndexes(indexes, specific, modified)| == 0
    ensures r.Returned? && r.passes > 0 ==>
      && r.passes <= fuel
      && (forall x :: x in SelectIndexes(indexes, specific, modified) ==> !stale(x, lastEtag, r.passes - 1))
      && forall q: nat :: q < r.passes - 1 ==>
           && StaleDuring(SelectIndexes(indexes, specific, modified), lastEtag, stale, q)
           && (throwParam != Some(false) ==>
                 !ExpiredDuring(SelectIndexes(indexes, specific, modified), lastEtag, stale, timedOut, q))
    ensures r.TimedOut? ==>
      && throwParam != Some(false)
      && r.indexCount == |SelectIndexes(indexes, specific, modified)|
      && 0 < r.passes <= fuel
      && ExpiredDuring(SelectIndexes(indexes, specific, modified), lastEtag, stale, timedOut, r.passes - 1)
      && forall q: nat :: q < r.passes - 1 ==>
           && StaleDuring(SelectIndexes(indexes, specific, modified), lastEtag, stale, q)
           && !ExpiredDuring(SelectIndexes(indexes, specific, modified), lastEtag, stale, timedOut, q)
    ensures r.StillWaiting? ==>
      forall q: nat :: q < fuel ==>
        && StaleDuring(SelectIndexes(indexes, specific, modified), lastEtag, stale, q)
        && (throwParam != Some(false) ==>
              !ExpiredDuring(SelectIndexes(indexes, specific, modified), lastEtag, stale, timedOut, q))
  {
    if |modified| == 0 then Returned(0)
    else
      var items := SelectIndexes(indexes, specific, modified);
      if |items| == 0 then Returned(0)
      else
        LoopInTermsOfMembers(items, lastEtag, throwParam.GetOr(true), stale, timedOut, fuel);
        WaitLoop(Waiter(items, lastEtag, throwParam.GetOr(true), stale, timedOut), 0, fuel)
  }

  /** With waitForIndexThrow=false, an index that stays stale keeps the loop
      spinning however much fuel it is given: the source has no bound. */
  lemma StuckIndexSpinsWithoutThrow(modified: set<string>, indexes: seq<Index>, specific: seq<string>,
                                    lastEtag: int, stale: (Index, int, nat) -> bool,
                                    timedOut: (Index, nat) -> bool, stuck: Index, fuel: nat)
    requires |modified| > 0
    requires stuck in SelectIndexes(indexes, specific, modified)
    requires forall p: nat :: stale(stuck, lastEtag, p)
    ensures WaitForIndexes(modified, indexes, specific, Some(false), lastEtag, stale, timedOut, fuel) == StillWaiting
  {
  }

  /** Once some pass finds every index fresh, the wait has ended by then:
      it never loops past the first fully fresh pass. */
  lemma {:induction false} FreshPassEndsWait(w: Waiter, p: nat, fuel: nat, q: nat)
    requires p <= q < p + fuel && Fresh(w, q)
    ensures WaitLoop(w, p, fuel).Returned? || WaitLoop(w, p, fuel).TimedOut?
    ensures WaitLoop(w, p, fuel).Returned? ==> WaitLoop(w, p, fuel).passes <= q + 1
    ensures WaitLoop(w, p, fuel).TimedOut? ==> WaitLoop(w, p, fuel).passes <= q
  {
    forall i | 0 <= i < |w.items|
      ensures !(w.stale(w.items[i], w.lastEtag, q) && w.timedOut(w.items[i], q))
    {
    }
    assert !Expired(w, q);
  }

  /** An awaited index that is still stale when its first wait times out
      ends the request with the TimeoutException, naming every awaited index,
      unless waitForIndexThrow=false. */
  lemma FirstPassTimeoutThrows(modified: set<string>, indexes: seq<Index>, specific: seq<string>,
                               throwParam: Option<bool>, lastEtag: int, stale: (Index, int, nat) -> bool,
                               timedOut: (Index, nat) -> bool, stuck: Index, fuel: nat)
    requires |modified| > 0 && fuel > 0 && throwParam != Some(false)
    requires stuck in SelectIndexes(indexes, specific, modified)
    requires stale(stuck, lastEtag, 0) && timedOut(stuck, 0)
    ensures WaitForIndexes(modified, indexes, specific, throwParam, lastEtag, stale, timedOut, fuel)
         == TimedOut(1, |SelectIndexes(indexes, specific, modified)|)
  {
    var items := SelectIndexes(indexes, specific, modified);
    var w := Waiter(items, lastEtag, throwParam.GetOr(true), stale, timedOut);
    var i :| 0 <= i < |items| && items[i] == stuck;
    assert RunPass(w, 0, 0) == Threw;
  }
}

=== FILE: json.dfy ===
/** The JSON values a batch reply is made of. A `DynamicJsonValue` is an
    ordered list of named properties, so an object is a sequence of `Prop`. */
module JsonValues {

  datatype Json =
    | JNull
    | JBool(b: bool)
    | JInt(i: int)
    | JString(s: string)
    | JArray(items: seq<Json>)
    | JObject(props: seq<Prop>)

  datatype Prop = Prop(name: string, value: Json)

  /** The property names an object carries (empty for a non-object). */
  function Names(j: Json): set<string> {
    if j.JObject? then set p | p in j.props :: p.name else {}
  }

  /** True when `j` is an object holding property `name` with value `v`. */
  predicate Has(j: Json, name: string, v: Json) {
    j.JObject? && Prop(name, v) in j.props
  }
}

=== FILE: replication_wait.dfy ===
/** The post-commit wait for replicas (WaitForReplicationAsync): resolving
    the requested replica count from the query string, and deciding whether
    the outcome of the wait throws. The wait itself is an oracle. */
module ReplicationWait {
  import opened Wrappers

  predicate IsDigit(c: char) {
    '0' <= c <= '9'
  }

  /** The white space `int.TryParse` skips around the number (U+0009..U+000D, U+0020). */
  predicate IsWhite(c: char) {
    c == ' ' || '\t' <= c <= '\r'
  }

  predicate AllDigits(ds: string) {
    forall i :: 0 <= i < |ds| ==> IsDigit(ds[i])
  }

  function DigitValue(c: char): nat
    requires IsDigit(c)
  {
    (c as int) - ('0' as int)
  }

  /** The value of a decimal digit string, most significant digit first. */
  function DigitsValue(ds: string): nat
    requires AllDigits(ds)
  {
    if |ds| == 0 then 0 else 10 * DigitsValue(ds[..|ds| - 1]) + DigitValue(ds[|ds| - 1])
  }

  function TrimStart(s: string): (r: string)
    ensures |r| > 0 ==> !IsWhite(r[0])
  {
    if |s| > 0 && IsWhite(s[0]) then TrimStart(s[1..]) else s
  }

  function TrimEnd(s: string): (r: string)
    ensures |r| > 0 ==> !IsWhite(r[|r| - 1])
  {
    if |s| > 0 && IsWhite(s[|s| - 1]) then TrimEnd(s[..|s| - 1]) else s
  }

  /** `int.TryParse(s, out n)` with the integer number style: optional white
      space, an optional sign, at least one decimal digit, optional white
      space, and a value within the 32-bit range. */
  function ParseInt32(s: string): (r: Option<int>)
    ensures r.Some? ==> Int32Min <= r.value <= Int32Max
  {
    var t := TrimEnd(TrimStart(s));
    var negative := |t| > 0 && t[0] == '-';
    var digits := if |t| > 0 && (t[0] == '-' || t[0] == '+') then t[1..] else t;
    if |digits| == 0 || !AllDigits(digits) then None
    else
      var v: int := if negative then -(DigitsValue(digits) as int) else DigitsValue(digits);
      if Int32Min <= v <= Int32Max then Some(v) else None
  }

  function DigitChar(d: nat): (c: char)
    requires d < 10
    ensures IsDigit(c) && DigitValue(c) == d
  {
    ('0' as int + d) as char
  }

  /** The decimal digits of `n`, without leading zeros. */
  function NatDigits(n: nat): (r: string)
    ensures |r| > 0 && AllDigits(r)
  {
    if n < 10 then [DigitChar(n)] else NatDigits(n / 10) + [DigitChar(n % 10)]
  }

  /** `n.ToString()` in the invariant culture. */
  function FormatInt(n: int): string {
    if n < 0 then "-" + NatDigits(-n) else NatDigits(n)
  }

  lemma {:induction false} NatDigitsValue(n: nat)
    ensures DigitsValue(NatDigits(n)) == n
  {
    if n >= 10 {
      NatDigitsValue(n / 10);
      var ds := NatDigits(n);
      assert ds[..|ds| - 1] == NatDigits(n / 10);
    }
  }

  lemma TrimNoWhite(s: string)
    requires |s| > 0 && !IsWhite(s[0]) && !IsWhite(s[|s| - 1])
    ensures TrimEnd(TrimStart(s)) == s
  {
  }

  /** An unsigned digit string whose value fits parses to that value. */
  lemma ParseUnsigned(ds: string)
    requires |ds| > 0 && AllDigits(ds) && DigitsValue(ds) <= Int32Max
    ensures ParseInt32(ds) == Some(DigitsValue(ds) as int)
  {
    assert IsDigit(ds[0]) && IsDigit(ds[|ds| - 1]);
    TrimNoWhite(ds);
    assert TrimEnd(TrimStart(ds)) == ds;
  }

  /** A minus sign before a digit string whose value fits parses to the
      negated value. */
  lemma ParseNegative(ds: string)
    requires |ds| > 0 && AllDigits(ds) && DigitsValue(ds) <= -Int32Min
    ensures ParseInt32("-" + ds) == Some(-(DigitsValue(ds) as int))
  {
    var s := "-" + ds;
    assert s[|s| - 1] == ds[|ds| - 1] && IsDigit(ds[|ds| - 1]);
    TrimNoWhite(s);
    assert TrimEnd(TrimStart(s)) == s;
    assert s[0] == '-' && s[1..] == ds;
  }

  /** Parsing the decimal text of any 32-bit integer gives that integer back. */
  lemma ParseFormatRoundTrip(n: int)
    requires Int32Min <= n <= Int32Max
    ensures ParseInt32(FormatInt(n)) == Some(n)
  {
    var m: nat := if n < 0 then -n else n;
    NatDigitsValue(m);
    if n < 0 {
      ParseNegative(NatDigits(m));
    } else {
      ParseUnsigned(NatDigits(m));
    }
  }

  /** The query-string value "majority". */
  const Majority := "majority"

  datatype ReplicationError =
    | InvalidInteger(name: string, value: string)
    | ReplicationTimeout(etag: int, requested: int, achieved: int)

  /** numberOfReplicasToWaitFor: absent means "1", "majority" means the size
      of a majority of the topology, anything else must parse as an integer. */
  function ResolveReplicaCount(param: Option<string>, majority: int): (r: Result<int, ReplicationError>)
    ensures param.None? ==> r == Success(1)
    ensures param == Some(Majority) ==> r == Success(majority)
    ensures r.Failure? <==> param.Some? && param.value != Majority && ParseInt32(param.value).None?
    ensures r.Failure? ==> r.error == InvalidInteger("numberOfReplicasToWaitFor", param.value)
    ensures r.Success? && param.Some? && param.value != Majority ==> Some(r.value) == ParseInt32(param.value)
  {
    var s := param.GetOr("1");
    assert param.None? ==> ParseInt32(s) == Some(1) by {
      if param.None? {
        assert TrimEnd(TrimStart(s)) == "1";
        assert DigitsValue("1") == 10 * DigitsValue("") + 1;
      }
    }
    if s == Majority then Success(majority)
    else
      match ParseInt32(s)
      case None => Failure(InvalidInteger("numberOfReplicasToWaitFor", s))
      case Some(n) => Success(n)
  }

  /** The wait's decision: `replicated(n, etag)` is how many replicas the
      replication loader reports for `etag` when asked to wait for `n`; the
      wait throws exactly when fewer than requested were reached and
      throwOnTimeoutInWaitForReplicas (default true) holds. */
  function WaitForReplication(param: Option<string>, throwParam: Option<bool>, majority: int, lastEtag: int,
                              replicated: (int, int) -> int): (r: Result<int, ReplicationError>)
    ensures ResolveReplicaCount(param, majority).Failure? ==> r == Failure(ResolveReplicaCount(param, majority).error)
    ensures ResolveReplicaCount(param, majority).Success? ==>
      var n := ResolveReplicaCount(param, majority).value;
      var got := replicated(n, lastEtag);
      && (r.Failure? <==> got < n && throwParam != Some(false))
      && (r.Failure? ==> r.error == ReplicationTimeout(lastEtag, n, got))
      && (r.Success? ==> r.value == got)
  {
    match ResolveReplicaCount(param, majority)
    case Failure(e) => Failure(e)
    case Success(n) =>
      var got := replicated(n, lastEtag);
      if got < n && throwParam.GetOr(true) then Failure(ReplicationTimeout(lastEtag, n, got))
      else Success(got)
  }

  /** Asking for `FormatInt(n)` replicas waits for exactly `n`. */
  lemma ExplicitCountIsHonoured(n: int, throwParam: Option<bool>, majority: int, lastEtag: int,
                                replicated: (int, int) -> int)
    requires Int32Min <= n <= Int32Max && FormatInt(n) != Majority
    ensures ResolveReplicaCount(Some(FormatInt(n)), majority) == Success(n)
    ensures WaitForReplication(Some(FormatInt(n)), throwParam, majority, lastEtag, replicated).Failure?
        <==> replicated(n, lastEtag) < n && throwParam != Some(false)
  {
    ParseFormatRoundTrip(n);
  }

  /** A value that is not a number is rejected before any waiting. */
  lemma NonIntegerRejected(majority: int, lastEtag: int, replicated: (int, int) -> int)
    ensures WaitForReplication(Some("two"), None, majority, lastEtag, replicated)
         == Failure(InvalidInteger("numberOfReplicasToWaitFor", "two"))
  {
    assert TrimEnd(TrimStart("two")) == "two";
    assert !IsDigit("two"[0]);
  }
}

=== FILE: storage.dfy ===
/** An abstract document store, standing in for DocumentsStorage and
    AttachmentsStorage as the batch path sees them: every key maps to the
    etag and collection of its document, and every mutation is stamped with
    the next value of one strictly increasing etag counter. */
module Storage {
  import opened Wrappers

  datatype Doc = Doc(etag: nat, collection: string)

  datatype AttachmentKey = AttachmentKey(documentId: string, name: string)

  datatype Attachment = Attachment(etag: nat, hash: string, contentType: string, size: nat)

  /** `keys` lists the stored keys in the order the engine enumerates them;
      `lastEtag` is the highest etag the engine has issued so far. */
  datatype Store = Store(
    docs: map<string, Doc>,
    keys: seq<string>,
    attachments: map<AttachmentKey, Attachment>,
    lastEtag: nat)

  const EmptyStore := Store(map[], [], map[], 0)

  predicate Distinct(ks: seq<string>) {
    forall i, j :: 0 <= i < j < |ks| ==> ks[i] != ks[j]
  }

  /** The store's invariant: the enumeration lists every key once, and no
      stored etag is above the counter, so a fresh etag exceeds them all. */
  predicate Valid(s: Store) {
    && Distinct(s.keys)
    && (forall k :: k in s.docs ==> k in s.keys)
    && (forall k :: k in s.keys ==> k in s.docs)
    && (forall k :: k in s.docs ==> s.docs[k].etag <= s.lastEtag)
    && (forall a :: a in s.attachments ==> s.attachments[a].etag <= s.lastEtag)
  }

  /** The optimistic-concurrency failure (ConcurrencyException). */
  datatype StorageError = ConcurrencyConflict(key: string)

  /** The expected-etag precondition: none given, or it equals the stored etag.
      An expected etag for an item that does not exist never matches. */
  predicate EtagMatches(actual: Option<nat>, expected: Option<int>) {
    expected.None? || (actual.Some? && actual.value == expected.value)
  }

  function DocEtag(s: Store, key: string): Option<nat> {
    if key in s.docs then Some(s.docs[key].etag) else None
  }

  /** A storage call's new store together with what it returns. */
  datatype Written<T> = Written(store: Store, result: T)

  /** Keeps the elements of `ks` that satisfy `keep`, in order. */
  function Filter(ks: seq<string>, keep: string -> bool): (r: seq<string>)
    ensures forall k :: k in r <==> k in ks && keep(k)
    ensures Distinct(ks) ==> Distinct(r)
    ensures |r| <= |ks|
  {
    if |ks| == 0 then []
    else
      var rest := Filter(ks[1..], keep);
      assert forall k :: k in ks <==> k == ks[0] || k in ks[1..];
      if keep(ks[0]) then
        assert Distinct(ks) ==> ks[0] !in ks[1..];
        [ks[0]] + rest
      else rest
  }

  /** Stores `key` in `collection` under the next etag. */
  function WriteDocument(s: Store, key: string, collection: string): (w: Written<nat>)
    requires Valid(s)
    ensures Valid(w.store)
    ensures w.result == s.lastEtag + 1 == w.store.lastEtag
    ensures forall k :: k in s.docs ==> s.docs[k].etag < w.result
    ensures w.store.docs == s.docs[key := Doc(w.result, collection)]
    ensures w.store.attachments == s.attachments
  {
    var e := s.lastEtag + 1;
    var keys := if key in s.docs then s.keys else s.keys + [key];
    Written(Store(s.docs[key := Doc(e, collection)], keys, s.attachments, e), e)
  }

  datatype PutResult = PutResult(key: string, etag: nat, collection: string)

  /** DocumentsStorage.Put: conflict unless the expected etag matches, else the
      document is stored under a fresh etag greater than every stored one. */
  function Put(s: Store, key: string, expected: Option<int>, collection: string): (r: Result<Written<PutResult>, StorageError>)
    requires Valid(s)
    ensures r.Success? <==> EtagMatches(DocEtag(s, key), expected)
    ensures r.Failure? ==> r.error == ConcurrencyConflict(key)
    ensures r.Success? ==>
      && Valid(r.value.store)
      && r.value.result == PutResult(key, s.lastEtag + 1, collection)
      && r.value.store.lastEtag == s.lastEtag + 1
      && r.value.store.docs == s.docs[key := Doc(s.lastEtag + 1, collection)]
  {
    if !EtagMatches(DocEtag(s, key), expected) then Failure(ConcurrencyConflict(key))
    else
      var w := WriteDocument(s, key, collection);
      Success(Written(w.store, PutResult(key, w.result, collection)))
  }

  datatype DeleteResult = DeleteResult(etag: nat, collection: string)

  /** DocumentsStorage.Delete: conflict unless the expected etag matches; no
      result (null) for a missing key; otherwise the document is removed and
      its tombstone takes a fresh etag. */
  function Delete(s: Store, key: string, expected: Option<int>): (r: Result<Written<Option<DeleteResult>>, StorageError>)
    requires Valid(s)
    ensures r.Success? <==> EtagMatches(DocEtag(s, key), expected)
    ensures r.Failure? ==> r.error == ConcurrencyConflict(key)
    ensures r.Success? ==> Valid(r.value.store)
    ensures r.Success? ==> (r.value.result.Some? <==> key in s.docs)
    ensures r.Success? && key !in s.docs ==> r.value.store == s
    ensures r.Success? && key in s.docs ==>
      && r.value.result == Some(DeleteResult(s.lastEtag + 1, s.docs[key].collection))
      && r.value.store.lastEtag == s.lastEtag + 1
      && r.value.store.docs == s.docs - {key}
  {
    if !EtagMatches(DocEtag(s, key), expected) then Failure(ConcurrencyConflict(key))
    else if key !in s.docs then Success(Written(s, None))
    else
      var e := s.lastEtag + 1;
      var keys := Filter(s.keys, k => k != key);
      var s' := Store(s.docs - {key}, keys, s.attachments, e);
      Success(Written(s', Some(DeleteResult(e, s.docs[key].collection))))
  }

  /** The collections of the stored documents whose key starts with `prefix`. */
  function CollectionsWithPrefix(s: Store, prefix: string): set<string> {
    set k | k in s.docs && prefix <= k :: s.docs[k].collection
  }

  /** The store without the documents whose key starts with `prefix`. */
  function RemovePrefixed(s: Store, prefix: string): (s': Store)
    requires Valid(s)
    ensures Valid(s')
    ensures forall k :: k in s'.docs <==> k in s.docs && !(prefix <= k)
    ensures forall k :: k in s'.docs ==> s'.docs[k] == s.docs[k]
    ensures s'.lastEtag == s.lastEtag
  {
    var docs := map k | k in s.docs && !(prefix <= k) :: s.docs[k];
    Store(docs, Filter(s.keys, k => !(prefix <= k)), s.attachments, s.lastEtag)
  }

  /** One tombstone per key of `matched`, with consecutive etags after `s.lastEtag`. */
  function Tombstones(s: Store, matched: seq<string>): (r: seq<DeleteResult>)
    requires forall k :: k in matched ==> k in s.docs
    ensures |r| == |matched|
    ensures forall j :: 0 <= j < |r| ==> r[j] == DeleteResult(s.lastEtag + 1 + j, s.docs[matched[j]].collection)
  {
    seq(|matched|, j requires 0 <= j < |matched| =>
      DeleteResult(s.lastEtag + 1 + j, s.docs[matched[j]].collection))
  }

  lemma TombstoneCollections(s: Store, prefix: string, matched: seq<string>)
    requires forall k :: k in matched <==> k in s.docs && prefix <= k
    ensures (set d | d in Tombstones(s, matched) :: d.collection) == CollectionsWithPrefix(s, prefix)
  {
    var results := Tombstones(s, matched);
    forall c | c in CollectionsWithPrefix(s, prefix)
      ensures c in (set d | d in results :: d.collection)
    {
      var k :| k in s.docs && prefix <= k && s.docs[k].collection == c;
      var j :| 0 <= j < |matched| && matched[j] == k;
      assert results[j].collection == c;
    }
    forall c | c in (set d | d in results :: d.collection)
      ensures c in CollectionsWithPrefix(s, prefix)
    {
      var d :| d in results && d.collection == c;
      var j :| 0 <= j < |results| && results[j] == d;
      assert matched[j] in matched;
    }
  }

  /** DocumentsStorage.DeleteDocumentsStartingWith: removes every document whose
      key starts with `prefix`, unconditionally, giving the tombstones
      consecutive fresh etags in enumeration order. */
  function DeleteStartingWith(s: Store, prefix: string): (w: Written<seq<DeleteResult>>)
    requires Valid(s)
    ensures Valid(w.store)
    ensures |w.result| > 0 <==> exists k :: k in s.docs && prefix <= k
    ensures forall k :: k in w.store.docs <==> k in s.docs && !(prefix <= k)
    ensures forall k :: k in w.store.docs ==> w.store.docs[k] == s.docs[k]
    ensures forall j :: 0 <= j < |w.result| ==> w.result[j].etag == s.lastEtag + 1 + j
    ensures w.store.lastEtag == s.lastEtag + |w.result|
    ensures (set d | d in w.result :: d.collection) == CollectionsWithPrefix(s, prefix)
  {
    var matched := Filter(s.keys, k => prefix <= k);
    var results := Tombstones(s, matched);
    TombstoneCollections(s, prefix, matched);
    assert |results| > 0 <==> exists k :: k in s.docs && prefix <= k by {
      if |results| > 0 { assert matched[0] in matched; }
      if exists k :: k in s.docs && prefix <= k {
        var k :| k in s.docs && prefix <= k;
        assert k in matched;
      }
    }
    Written(RemovePrefixed(s, prefix).(lastEtag := s.lastEtag + |results|), results)
  }

  datatype AttachmentPutResult = AttachmentPutResult(
    documentId: string, name: string, etag: nat, hash: string, contentType: string, size: nat)

  function AttachmentEtag(s: Store, key: AttachmentKey): Option<nat> {
    if key in s.attachments then Some(s.attachments[key].etag) else None
  }

  /** AttachmentsStorage.PutAttachment: conflict unless the expected etag
      matches the stored attachment's, else the attachment is stored under a
      fresh etag and its metadata echoed back. */
  function PutAttachment(s: Store, documentId: string, name: string, contentType: string,
                         hash: string, size: nat, expected: Option<int>): (r: Result<Written<AttachmentPutResult>, StorageError>)
    requires Valid(s)
    ensures r.Success? <==> EtagMatches(AttachmentEtag(s, AttachmentKey(documentId, name)), expected)
    ensures r.Failure? ==> r.error == ConcurrencyConflict(documentId)
    ensures r.Success? ==>
      && Valid(r.value.store)
      && r.value.result == AttachmentPutResult(documentId, name, s.lastEtag + 1, hash, contentType, size)
      && r.value.store.lastEtag == s.lastEtag + 1
      && r.value.store.docs == s.docs
  {
    var key := AttachmentKey(documentId, name);
    if !EtagMatches(AttachmentEtag(s, key), expected) then Failure(ConcurrencyConflict(documentId))
    else
      var e := s.lastEtag + 1;
      var s' := s.(attachments := s.attachments[key := Attachment(e, hash, contentType, size)], lastEtag := e);
      Success(Written(s', AttachmentPutResult(documentId, name, e, hash, contentType, size)))
  }
}

=== FILE: wrappers.dfy ===
/** Failure-carrying wrappers used throughout the model: `Option` stands for a
    nullable reference or `Nullable<T>`, `Result` for a call that may throw;
    and the range of the C# `int`. */
module Wrappers {

  /** int.MinValue and int.MaxValue. */
  const Int32Min: int := -0x8000_0000
  const Int32Max: int := 0x7FFF_FFFF

  datatype Option<+T> = None | Some(value: T) {

    /** The value, or `default` when absent (the C# `??` operator). */
    function GetOr(default: T): T {
      match this
      case Some(v) => v
      case None => default
    }
  }

  datatype Result<+R, +E> = Success(value: R) | Failure(error: E)
}
